=== FILE: README.md ===
# ISAPHomeBanking presentation layer in Dafny

ISAPHomeBanking is a simulated retail bank. Its web front end is a set of
pages over a hosted database. Every operation that moves money is one opaque
remote procedure: `transfer_funds`, `bank_credit` or `approve_client`. What the
front end itself computes is small, pure and sequential:

- the CSV export;
- the parser that turns an amount typed in Argentine notation ("5.000,00")
  into integer cents;
- the statement summary;
- the choice of the debit and credit legs on a transfer receipt;
- the search filters and the keep-first de-duplication on the employees'
  pages;
- the checks a form runs before a remote procedure is called;
- the role and status dispatch of the login page, the registration page and
  the navigation bar.

This project models that logic as pure functions over immutable records and
sequences, with one loop for the de-duplication. It proves what the pages
promise about each operation.

Modules, one per source file, leaves first:

| module | file | models |
|---|---|---|
| `Wrappers` | `wrappers.dfy` | `Option` (null or undefined) and `Result` (a value or an error message) |
| `Text` | `text.dfy` | `trim`, ASCII `toLowerCase`, `includes`, `join`, `split` |
| `Numerals` | `numerals.dfy` | decimal digit strings and their values |
| `Seqs` | `seqs.dfy` | order-keeping filter, keep-first de-duplication by key, last-match scan |
| `Records` | `records.dfy` | the `Movement`, `Account` and `Profile` rows; JavaScript `\|\|` on nullable fields; the access check of the bank pages |
| `Csv` | `csv.dfy` | `exportToCSV` without the download, and a decoder for the fields it writes |
| `Money` | `money.dfy` | the string branch of `toCents` |
| `Statement` | `statement.dfy` | the statement summary and export of `extract.js` |
| `Receipt` | `receipt.dfy` | leg selection, `formatMoney` and the texts of `receipt.js` |
| `AdminMovements` | `admin_movements.dfy` | the account search, de-duplication and export of `admin-movements.js` |
| `CreditModal` | `credit_modal.dfy` | the amount check of the credit dialog |
| `Home` | `home.dfy` | `doTransfer` |
| `Admin` | `admin.dfy` | the employees' panel: access check, account filter, credit button, `doCredit` |
| `AdminApprove` | `admin_approve.dfy` | the access check and pending-client filter of `admin-approve.js` |
| `Login` | `login.dfy` | the redirect effect of the login page |
| `Layout` | `layout.dfy` | the links of the navigation bar |
| `Register` | `register.dfy` | the redirect guard and `handleRegister` |

Modelling conventions:

- A nullable field is an `Option`. A string is truthy when it is present and
  non-empty. A nullable amount is truthy when it is present and non-zero.
- Amounts are `int` cents. There is no floating point anywhere in the model:
  `Math.round(Number(t) * 100)` is computed exactly, which agrees with the
  source's double arithmetic only for amounts below 2^51 cents (see "## Left out").
- `Number(text)` is modelled on the grammar `[+-]? (digits [. d{0,2}] | . d{1,2})`,
  after JavaScript white-space trimming. The empty string reads as 0, and
  anything else reads as NaN.
- Remote procedures, database queries, locale-dependent formatting and the
  session are parameters: a reply (`Result<string, string>`), a row or list
  (`Option`), or a function standing for a formatter.

Where the source departs from RFC 4180, or its pages disagree with one
another, the model follows the source as written:

- The CSV file joins its records with a line feed, where section 2 of RFC 4180
  asks for CRLF.
- Every exported value is a string by the time it is quoted: `String(v)`.
- The registration page sends a user without a role to `/home` on an
  `approved` status alone. This is proved as `Register.ApprovedWithoutRole`.
- `pages/admin.js` lists pending clients by `status`, but
  `pages/admin-approve.js` uses an `approved` flag. The two pages also call
  `approve_client` with different argument names. Both differences lie in the
  database queries and procedure calls, which are left out (see below). The
  model starts from the lists the pages have already loaded.

## Model

| member | source | states |
|---|---|---|
| Csv.DoubleQuotes | utils/csv.js:6 | after quote doubling, every `"` is part of an adjacent pair `""`, and collapsing the pairs gives back the original string |
| Csv.Escape | utils/csv.js:4-8 | null or undefined escapes to the empty, unquoted field; any other value is wrapped in quotes, and the body between them collapses back to the value with only paired quotes inside |
| Csv.LookupFirst | utils/csv.js:11 | `r[h]` reads the first entry of the row named `h` |
| Csv.LookupAbsent | utils/csv.js:11 | a key the row lacks reads as undefined |
| Csv.Fields | utils/csv.js:11 | a data row has one value per header, in header order: position `j` holds the value of the row's first entry named `headers[j]`, and an absent value when the row has no such entry |
| Csv.Lines | utils/csv.js:9-12 | the line list has one line more than there are rows |
| Csv.ExportToCsv | utils/csv.js:2-13 | the export produces nothing exactly when there are no rows |
| Csv.ReadQuotedEscaped | utils/csv.js:6-7 | reading an escaped body stops at its closing quote, whatever follows (unless a quote follows), and undoubles the quotes |
| Csv.FieldsRoundTrip | utils/csv.js:4-11 | decoding a comma-joined line of escaped values gives back every value, absent ones included |
| Csv.DataLinesDecode | utils/csv.js:9-12 | data line `i + 1` is row `i` under the first row's keys, and decodes to exactly one value per header |
| Csv.HeaderLineDecodes | utils/csv.js:3-10 | the header line is the first row's keys joined by commas, and splits back into those keys when none of them contains a comma; keys found only in later rows are not in it |
| Csv.DocumentLines | utils/csv.js:9-13 | when no column name and no value holds a line feed, splitting the downloaded document at its line feeds gives back exactly the header line and the data lines |
| Text.Trim | pages/admin.js:78-79 | the trimmed text is empty exactly when the text is blank; otherwise it starts and ends with a non-space character |
| Text.TrimRemovesPadding | pages/admin.js:78-79 | the text is a blank prefix, then its trim, then a blank suffix; with the previous row, this fixes the trim uniquely |
| Text.LowerTrimCommute | pages/admin-approve.js:59 | trimming then lower-casing gives the same result as lower-casing then trimming |
| Money.RemoveDots | utils/money.js:3 | every dot is removed; the other characters stay in their order, each with its count |
| Money.ReplaceFirstComma | utils/money.js:3 | only the first comma becomes a dot; every other position is unchanged |
| Money.NormaliseShape | utils/money.js:3 | after normalisation the only dot left, if any, is where the first comma was |
| Money.NumberRejectsComma | utils/money.js:4-5 | text that still holds a comma reads as NaN |
| Money.BlankIsZero | utils/money.js:3-5 | null, undefined, the empty string and white space give 0 |
| Money.ToCents | utils/money.js:1-5 | text without a single digit, and text with two or more commas, give 0 (also null and undefined, read as '') |
| Money.NoDigitsUnread | utils/money.js:3-5 | after normalisation, text without a single digit is NaN or 0 for `Number` |
| Money.TwoCommasUnread | utils/money.js:3-5 | text with two or more commas is NaN for `Number` after normalisation, because only the first comma is converted |
| Money.DecimalAmount | utils/money.js:3-5 | `[-]digits,d{0,2}` gives the signed integer part times 100 plus the fraction scaled to cents |
| Money.WholeAmount | utils/money.js:3-5 | `[-]digits` without a comma gives the signed integer times 100 |
| Money.DotsIgnored | utils/money.js:3 | when the input has no white space, removing its dots beforehand changes nothing |
| Money.RemoveOneDot | utils/money.js:3 | a single dot between dot-free parts is dropped |
| Money.DotJoinsDigits | utils/money.js:3-5 | a dot between two runs of digits is a thousands separator: the digits read as one whole number |
| Money.DotIsNotDecimalPoint | utils/money.js:3-5 | "1.5" gives 1500 cents |
| Money.ThousandsAndDecimals | utils/money.js:3-5 | `a.b,fp` gives the digits of `a` and `b` as the integer part and `fp` as the fraction |
| Money.ArgentineNotation | utils/money.js:3-5 | "5.000,00" gives 500000 cents |
| Money.FormatAmountRoundTrip | utils/money.js:3-5 | every integer amount, written as `[-]units,cc`, reads back as the same cents |
| Seqs.Filter | pages/admin.js:77 | the filter keeps an order-preserving subsequence, and each element it keeps passes the test |
| Seqs.FilterMembers | pages/admin.js:77-85 | an element is kept exactly when it is in the input and passes the test |
| Seqs.FilterCount | pages/admin-approve.js:61-64 | each passing element keeps its multiplicity, and each failing element is gone |
| Seqs.DedupFrom | pages/admin-movements.js:49 | the de-duplicated list is a subsequence with pairwise different keys, none of them already seen, and it holds every unseen key of the input |
| Seqs.DedupFromFirst | pages/admin-movements.js:49 | every element kept is the first element of the input with its key |
| Seqs.DedupIdempotent | pages/admin-movements.js:49 | de-duplicating twice is the same as de-duplicating once |
| Seqs.ScanLastIsLast | pages/receipt.js:42-45 | the `forEach` scan ends on the last matching element, or on its start value when nothing matches |
| Numerals.NatToStringValue | pages/receipt.js:34 | the decimal numeral of `n` reads back as `n` |
| Records.StaffAccess | pages/admin.js:16-29 | only a signed-in user whose `users` row has role `bank` is admitted; anyone else signed in is refused with the page's message |
| Records.AccessRedirect | pages/admin-approve.js:17-31 | no session and a refusal send the browser to `/`; a stalled check stays on the page |
| Records.MissingMentionsNothing | pages/admin.js:81-83 | a missing field, read as '', contains no non-empty query |
| Statement.Summarize | pages/extract.js:35-41 | an empty list sums to four zeros; otherwise the opening balance is undone from the first row, the closing balance is the last row's balance, and the totals add up the debits and the credits, a missing amount counting as 0 |
| Statement.TotalsAppend | pages/extract.js:37-38 | the totals of a concatenation are the sums of the totals of its parts |
| Statement.ClosingBalance | pages/extract.js:36-39 | when every row continues from the previous row's balance, the closing balance is the opening balance plus credits minus debits, the formula the empty case uses |
| Statement.StatementsCompose | pages/extract.js:36-39 | for two consecutive chained statements, the second opens at the first one's close, and the statement over both spans the two |
| Statement.Detail | pages/extract.js:51 | the detail is the concept alone when there is no peer company; otherwise it is the concept followed by the peer company in parentheses |
| Statement.ExportRecords | pages/extract.js:49-56 | there is one export object per row, in row order |
| Statement.ExportRecordFields | pages/extract.js:49-56 | each export object has exactly the six columns and yields its values in column order |
| Statement.ExtractExport | pages/extract.js:48-58 | `extracto.csv` is produced exactly when there are rows |
| Statement.ExportDecodes | pages/extract.js:49-57 | in the export's line list, the first line is the six column names and line `i + 1` decodes to row `i`'s date, detail, amounts and transaction id |
| Statement.ExportFileDecodes | pages/extract.js:49-57 | when no value holds a line feed, the downloaded `extracto.csv` split at its line feeds has one line per row after a header line of the six column names, and line `i + 1` decodes to row `i`'s values |
| Receipt.SelectLegs | pages/receipt.js:38-46 | unless exactly two entries were loaded, both legs are null; with two entries, each leg is the last entry with a positive amount of its kind |
| Receipt.WellFormedPair | pages/receipt.js:40-45 | for one debit-only leg and one credit-only leg, in either order, the selections are those two distinct legs |
| Receipt.FormatMoney | pages/receipt.js:33-35 | the text is `ARS `, a minus sign exactly for negative amounts, the units of the absolute amount without leading zeros, a dot, and the two-digit remainder in cents |
| Receipt.ReceiptAmountReadBack | pages/receipt.js:34 | no page feeds a receipt amount to `toCents`; if one did, the amount would come out a hundred times too large, because the dot is taken for a thousands separator |
| Receipt.ReceiptAndAmountFormats | pages/receipt.js:34 | the receipt amount and the Argentine notation differ only in the decimal separator |
| Receipt.ReceiptView | pages/receipt.js:57-75 | the origin alias is `alias`, else `peer_alias`, else `-`; the CBU follows the same rule; the concept is `concept`, else `detail`, else empty; the amounts are formatted when a leg exists |
| Receipt.NoPairNoDetails | pages/receipt.js:38-75 | unless exactly two entries were loaded, every origin and destination text is `-` and the concept is empty |
| AdminMovements.SearchAccounts | pages/admin-movements.js:25-57 | a query that is blank after trimming shows the default listing; any other query shows the merged results, each `uid` once, in order, with the merged `uid` set |
| AdminMovements.DedupByUid | pages/admin-movements.js:49 | the loop over a set of seen `uid`s computes the keep-first de-duplication, and no `uid` repeats in its result |
| AdminMovements.UidsDistinct | pages/admin-movements.js:49 | the rows the de-duplication keeps have pairwise different `uid`s |
| AdminMovements.FirstSearchWins | pages/admin-movements.js:43-49 | for a `uid` that the alias/CBU/company search found, the row that survives is that search's row, even when the e-mail search found the same account |
| AdminMovements.AdminExport | pages/admin-movements.js:74-85 | there is no export without rows; otherwise the file is named `movimientos_` plus the alias, or `cuenta` when there is none |
| AdminMovements.SameExportAsStatement | pages/admin-movements.js:74-85 | the bank's export of an account has the same content as the holder's own statement export |
| AdminMovements.PageAccess | pages/admin-movements.js:16-19 | only bank employees are admitted; anyone else signed in is refused |
| CreditModal.Submit | components/CreditModal.js:6-12 | a closed dialog renders nothing; a non-positive parsed amount is rejected with 'Importe inválido'; a positive one is handed on exactly as parsed |
| CreditModal.UnparseableRejected | components/CreditModal.js:8-10 | text without a digit is rejected |
| CreditModal.SecondCommaRejected | components/CreditModal.js:8-10 | text with a second comma is rejected |
| CreditModal.PlaceholderAccepted | components/CreditModal.js:22 | the dialog's own example, "5.000,00", credits 500000 cents |
| Home.PrepareTransfer | pages/home.js:44-51 | a request exists exactly when the parsed amount is positive; it carries that amount and the trimmed destination, and an empty concept becomes 'Transferencia' |
| Home.Transfer | pages/home.js:41-57 | with a non-positive amount there is only the error and no request; on an error reply its message is shown and there is no redirect; on success the page goes to `/receipt?tx=` and the returned id; earlier messages play no part |
| Home.ReceiptOfReturnedId | pages/home.js:44-57 | on a successful reply the page is redirected exactly when the amount was accepted, and the redirect names the id the procedure returned |
| Home.SameAmountsAsCreditDialog | pages/home.js:44-45 | the transfer form and the credit dialog accept the same amount texts and read them as the same cents |
| Admin.PageAccess | pages/admin.js:16-29 | only bank employees are admitted; anyone else signed in is refused with 'Acceso solo para empleados.' |
| Admin.AccountQueryBlank | pages/admin.js:78-79 | the query is empty exactly when the filter text is blank |
| Admin.FilterAccounts | pages/admin.js:77-85 | a blank filter keeps every account; otherwise an account is kept, in order and as often as it occurs, exactly when its alias, CBU or company name contains the lower-cased trimmed query |
| Admin.MissingFieldsExcluded | pages/admin.js:80-84 | with a non-blank filter, an account with all three fields missing is never shown |
| Admin.CreditFlow | pages/admin.js:64-72 | a credit request reaches `bank_credit` exactly when the account is not a public entity and the amount parses positive; it carries the account's `uid`, the parsed cents and 'Acreditación inicial' |
| AdminApprove.ApproveAccess | pages/admin-approve.js:16-31 | without a session the browser goes to `/`; a failed or missing profile only alerts; a non-bank role is refused; only `bank` is admitted |
| AdminApprove.NonBankNeverFetches | pages/admin-approve.js:27-33 | a non-bank profile is never admitted, so the pending list is never fetched; without a query error it is sent to `/` |
| AdminApprove.SameQueryAsAccountFilter | pages/admin-approve.js:59 | the approval page normalises its query the same way as the employees' panel |
| AdminApprove.FilterPending | pages/admin-approve.js:58-65 | a blank query keeps the pending list unchanged; otherwise a client is kept, in order and as often as it occurs, exactly when its company name or e-mail contains the query |
| Login.LoginEffect | pages/index.js:18-29 | no user: nothing; `bank`: `/admin`; `client` and `approved`: `/home`; `client` otherwise: the pending notice; any other role: nothing |
| Login.EmployeeStatusIgnored | pages/index.js:20-21 | the status plays no part for an employee |
| Layout.NavLinks | components/Layout.js:40-70 | 'Inicio' shows exactly for an approved client; 'Panel Admin' shows exactly for `bank`; 'Salir' shows exactly when signed in; a visitor sees only 'Ingresar' and 'Registrarse' |
| Layout.LinksMatchLoginRedirects | components/Layout.js:42-51 | 'Inicio' shows exactly for the users the login page sends to `/home`, and 'Panel Admin' exactly for those it sends to `/admin` |
| Layout.AtMostOneHome | components/Layout.js:42-51 | no user sees both 'Inicio' and 'Panel Admin' |
| Register.RegisterRedirect | pages/register.js:20-27 | a `bank` user goes to `/admin`; any other user with status `approved` goes to `/home`, with no role check; everyone else stays |
| Register.RedirectsAgreeForKnownRoles | pages/register.js:20-27 | for the roles `bank` and `client`, the registration page redirects exactly where the login page does |
| Register.ApprovedWithoutRole | pages/register.js:24-25 | an approved user without a role is sent to `/home` here, but is not redirected by the login page and gets no 'Inicio' link |
| Register.HandleRegister | pages/register.js:29-59 | a sign-up error stops before any profile is written; the profile written carries the new user's id, the typed e-mail, company name and type, role `client` and status `pending`; the user is signed out exactly when sign-up and insert both succeed |
| Register.NewClientIsPending | pages/register.js:44-51 | a freshly registered client gets the pending notice at login, is not redirected by the registration page, and gets no 'Inicio' link |

## Left out

- The remote procedures `transfer_funds`, `bank_credit` and `approve_client`, with their balance updates, movement pairs, atomicity and identifier resolution. They run in the hosted database. Their replies are parameters.
- The approval action of both admin pages (`approve`, including its `confirm` dialog and the two argument spellings): a remote call followed by a reload, with no logic of its own.
- Database queries: the `ilike`/`or` filters, ordering, limits and the date-range bounds of the statement. Their results are parameters.
- `loadMovements` in `pages/admin-movements.js`: one query and two state updates.
- Authentication, the session and profile loading (`hooks/useUser.js`, `pages/_app.js`, `utils/supabaseClient.js`). The signed-in user is a parameter.
- The numeric branch of `toCents` (an argument that is already a number), and floating point in general: the model reads the text as an exact decimal.
- `currency` with `Intl.NumberFormat`, `toLocaleString` dates and the `/100` values of the exports. They are locale-dependent. The export takes them as functions (`dateText`, `major`).
- Money.ToCents: `Number` syntax beyond the modelled grammar gives 0 in the model. This covers exponents, hexadecimal, binary and octal prefixes, and more than two fraction digits. JavaScript reads some of these as finite numbers.
- Money.ToCents: the source computes `Number(t) * 100` and `Math.round` in double precision; the model computes exact cents. The two agree below 2^51 cents (about 2.2 * 10^13 pesos). Beyond that the source loses digits: "99999999999999999" gives 10^19 cents in the source, where the model gives 9999999999999999900. Text too large for a double is `Infinity`, and the `Number.isFinite` test at utils/money.js:5 then gives 0; the model gives the exact value instead.
- Money.WholeAmount: holds for the exact reading; with the source's doubles, only below 2^51 cents.
- Money.DecimalAmount: holds for the exact reading; with the source's doubles, only below 2^51 cents.
- Money.FormatAmountRoundTrip: holds for the exact reading; with the source's doubles, only below 2^51 cents. For example, "90071992547409,93" reads back as 9007199254740994 in JavaScript.
- Receipt.FormatMoney: the source divides by 100 in double precision before `toFixed(2)`; the model formats the exact cents. The two agree only below 100 * 2^46 cents (about 7 * 10^15): from 2^46 units on, doubles are 2^-6 apart, more than a cent. For example, 7036874417766401 cents print as "ARS 70368744177664.02" in the source, where the model gives "ARS 70368744177664.01". Exponent notation from 10^21 units on is not modelled either.
- The browser side: the Blob download, `window.location`, `alert`, `confirm`, `print` and React state and rendering, including `components/ReceiptCard.js`. Redirects and alerts appear in the model as values.
- A CSV value holding a line feed makes the downloaded document's line split ambiguous. `Csv.DocumentLines` and `Statement.ExportFileDecodes` therefore require values without line feeds; the per-line lemmas hold for any values.
- Unicode case folding: `toLowerCase` is ASCII lower-casing.
- Reads of null objects in the source: `me.id` before the profile has loaded, and `newUser.id` when sign-up returns no user. In JavaScript these throw. The model takes the identifiers as given.

=== FILE: admin.dfy ===
/** The employees' panel (pages/admin.js): the access check, the account
    filter, which accounts offer a credit, and the request a credit sends to
    the `bank_credit` procedure. */
module Admin {
  import opened Wrappers
  import opened Text
  import opened Seqs
  import opened Records
  import opened Money
  import CreditModal

  /** Entering the panel: only bank employees are admitted. */
  function PageAccess(signedIn: bool, myRow: Option<Profile>): (a: Access)
    ensures a == Admitted <==> signedIn && myRow.Some? && myRow.value.role == Some("bank")
    ensures signedIn && a != Admitted ==> a == Refused("Acceso solo para empleados.")
  {
    StaffAccess(signedIn, myRow, "Acceso solo para empleados.")
  }

  /** `filter.toLowerCase().trim()`. */
  function AccountQuery(filter: string): string {
    Trim(Lower(filter))
  }

  /** The query is empty exactly when the filter text is blank. */
  lemma AccountQueryBlank(filter: string)
    ensures AccountQuery(filter) == Lower(Trim(filter))
    ensures AccountQuery(filter) == "" <==> IsBlank(filter)
  {
    LowerTrimCommute(filter);
  }

  predicate AccountMatches(a: Account, q: string) {
    Mentions(a.alias, q) || Mentions(a.cbu, q) || Mentions(a.companyName, q)
  }

  /** `filtered`: every account for a blank filter, otherwise the accounts
      whose alias, CBU or company name contains the query, in their order. */
  function FilterAccounts(accounts: seq<Account>, filter: string): (r: seq<Account>)
    ensures IsSubsequence(r, accounts)
    ensures IsBlank(filter) ==> r == accounts
    ensures forall a :: a in r <==> a in accounts && (IsBlank(filter) || AccountMatches(a, Lower(Trim(filter))))
    ensures forall a ::
              multiset(r)[a] ==
              (if IsBlank(filter) || AccountMatches(a, Lower(Trim(filter))) then multiset(accounts)[a] else 0)
  {
    var q := AccountQuery(filter);
    AccountQueryBlank(filter);
    if q == "" then
      SubsequenceRefl(accounts);
      accounts
    else
      var r := Filter(accounts, MatchesQuery(q));
      KeptAccounts(accounts, q);
      r
  }

  /** The test `filtered` applies to each account. */
  function MatchesQuery(q: string): Account -> bool {
    (a: Account) => AccountMatches(a, q)
  }

  /** The matching accounts are kept, each as often as it occurs, and no
      other account is. */
  lemma KeptAccounts(accounts: seq<Account>, q: string)
    ensures forall a :: a in Filter(accounts, MatchesQuery(q)) <==> a in accounts && AccountMatches(a, q)
    ensures forall a ::
              multiset(Filter(accounts, MatchesQuery(q)))[a] ==
              (if AccountMatches(a, q) then multiset(accounts)[a] else 0)
  {
    FilterMembers(accounts, MatchesQuery(q));
    FilterCount(accounts, MatchesQuery(q));
  }

  /** With a non-blank filter, an account whose alias, CBU and company name are
      all missing is never shown. */
  lemma MissingFieldsExcluded(accounts: seq<Account>, filter: string, a: Account)
    requires !IsBlank(filter)
    requires a.alias.None? && a.cbu.None? && a.companyName.None?
    ensures a !in FilterAccounts(accounts, filter)
  {
    var q := Lower(Trim(filter));
    assert q != "";
    MissingMentionsNothing(q);
    assert !AccountMatches(a, q);
  }

  /** `!a.is_entity`: the `Acreditar` button is shown for accounts that are
      not public entities, including those where the flag is missing. */
  predicate CreditOffered(a: Account) {
    a.isEntity != Some(true)
  }

  /** The arguments of `bank_credit`. */
  datatype CreditRequest = CreditRequest(uid: string, amount: int, detail: string)

  const InitialCreditDetail: string := "Acreditación inicial"

  /** `doCredit(amountCents)` for the account the dialog was opened on. */
  function DoCredit(account: Account, amountCents: int): CreditRequest {
    CreditRequest(account.uid, amountCents, InitialCreditDetail)
  }

  /** Pressing `Acreditar` on an account, typing `amount` and confirming: the
      request that reaches `bank_credit`, if any. */
  function CreditFlow(account: Account, amount: string): (req: Option<CreditRequest>)
    ensures req.Some? <==> CreditOffered(account) && ToCents(Some(amount)) > 0
    ensures account.isEntity == Some(true) ==> req.None?
    ensures req.Some? ==> req.value == CreditRequest(account.uid, ToCents(Some(amount)), InitialCreditDetail)
  {
    if !CreditOffered(account) then None
    else
      match CreditModal.Submit(true, amount)
      case Confirmed(cents) => Some(DoCredit(account, cents))
      case _ => None
  }
}

=== FILE: admin_approve.dfy ===
/** The client approval page (pages/admin-approve.js): the access check and
    the filter over the pending clients. */
module AdminApprove {
  import opened Wrappers
  import opened Text
  import opened Seqs
  import opened Records
  import Admin

  const NoProfile: string := "No se pudo obtener tu perfil"
  const StaffOnly: string := "Acceso solo para empleados"

  /** Entering the page. A failed or empty profile query only alerts: the
      page stays, and nothing is loaded. A non-bank role is sent away. */
  function ApproveAccess(signedIn: bool, profileError: bool, myRow: Option<Profile>): (a: Access)
    ensures !signedIn ==> a == NoSession
    ensures signedIn && (profileError || myRow.None?) ==> a == Stalled(NoProfile)
    ensures a == Admitted <==>
      signedIn && !profileError && myRow.Some? && myRow.value.role == Some("bank")
    ensures signedIn && !profileError && myRow.Some? && myRow.value.role != Some("bank") ==>
      a == Refused(StaffOnly)
  {
    if !signedIn then NoSession
    else if profileError || myRow.None? then Stalled(NoProfile)
    else if myRow.value.role != Some("bank") then Refused(StaffOnly)
    else Admitted
  }

  /** The pending list is fetched only once the caller is admitted; a
      profile that is not `bank` is always sent to `/`. */
  lemma NonBankNeverFetches(profileError: bool, myRow: Profile)
    requires myRow.role != Some("bank")
    ensures !ApproveAccess(true, profileError, Some(myRow)).Admitted?
    ensures !profileError ==> AccessRedirect(ApproveAccess(true, profileError, Some(myRow))) == Some("/")
  {
  }

  /** `q.trim().toLowerCase()`. */
  function PendingQuery(q: string): string {
    Lower(Trim(q))
  }

  /** The two admin pages normalise their search text the same way although
      they trim and lower-case in opposite orders. */
  lemma SameQueryAsAccountFilter(q: string)
    ensures PendingQuery(q) == Admin.AccountQuery(q)
  {
    LowerTrimCommute(q);
  }

  predicate ClientMatches(u: Profile, s: string) {
    Mentions(u.companyName, s) || Mentions(u.email, s)
  }

  /** `filtered`: the whole pending list for a blank query, otherwise the
      clients whose company name or e-mail contains it, in their order. */
  function FilterPending(pending: seq<Profile>, q: string): (r: seq<Profile>)
    ensures IsSubsequence(r, pending)
    ensures IsBlank(q) ==> r == pending
    ensures forall u :: u in r <==> u in pending && (IsBlank(q) || ClientMatches(u, PendingQuery(q)))
    ensures forall u ::
              multiset(r)[u] ==
              (if IsBlank(q) || ClientMatches(u, PendingQuery(q)) then multiset(pending)[u] else 0)
  {
    var s := PendingQuery(q);
    assert s == "" <==> IsBlank(q);
    if s == "" then
      SubsequenceRefl(pending);
      pending
    else
      var r := Filter(pending, (u: Profile) => ClientMatches(u, s));
      FilterMembers(pending, (u: Profile) => ClientMatches(u, s));
      FilterCount(pending, (u: Profile) => ClientMatches(u, s));
      r
  }
}

=== FILE: admin_movements.dfy ===
/** The bank's movements page (pages/admin-movements.js): merging the two
    account searches with keep-first de-duplication by `uid`, and the CSV
    export of the selected account's movements. The query results are
    parameters: the searches themselves run in the database. */
module AdminMovements {
  import opened Wrappers
  import opened Text
  import opened Seqs
  import opened Records
  import opened Csv
  import opened Statement

  function Uid(a: Account): string {
    a.uid
  }

  /** `(query || '').trim()`. */
  function SearchText(query: Option<string>): string {
    Trim(query.GetOr(""))
  }

  /** The accounts of the alias/CBU/company search, followed by those of the
      users whose e-mail matched when there were any. */
  function Merged(fieldHits: Option<seq<Account>>, emailUsers: Option<seq<string>>,
                  emailAccounts: Option<seq<Account>>): seq<Account> {
    fieldHits.GetOr([]) +
    (if emailUsers.Some? && |emailUsers.value| > 0 then emailAccounts.GetOr([]) else [])
  }

  /** `searchAccounts(query)`: a blank query shows the default listing; any
      other query shows the merged search results, each `uid` once. */
  function SearchAccounts(query: Option<string>, fieldHits: Option<seq<Account>>,
                          emailUsers: Option<seq<string>>, emailAccounts: Option<seq<Account>>,
                          listing: Option<seq<Account>>): (r: seq<Account>)
    ensures IsBlank(query.GetOr("")) ==> r == listing.GetOr([])
    ensures !IsBlank(query.GetOr("")) ==>
      var m := Merged(fieldHits, emailUsers, emailAccounts);
      && IsSubsequence(r, m)
      && (forall i, j :: 0 <= i < j < |r| ==> r[i].uid != r[j].uid)
      && KeySet(r, Uid) == KeySet(m, Uid)
  {
    if SearchText(query) != "" then Dedup(Merged(fieldHits, emailUsers, emailAccounts), Uid)
    else listing.GetOr([])
  }

  /** The de-duplication loop: a `Set` of seen `uid`s, keeping an account only
      the first time its `uid` comes by. */
  method DedupByUid(xs: seq<Account>) returns (r: seq<Account>)
    ensures r == Dedup(xs, Uid)
    ensures forall i, j :: 0 <= i < j < |r| ==> r[i].uid != r[j].uid
  {
    var seen: set<string> := {};
    r := [];
    var i := 0;
    while i < |xs|
      invariant 0 <= i <= |xs|
      invariant r + DedupFrom(xs[i..], Uid, seen) == Dedup(xs, Uid)
    {
      DedupLoopStep(r, xs, Uid, seen, i);
      if xs[i].uid !in seen {
        seen := seen + {xs[i].uid};
        r := r + [xs[i]];
      }
      i := i + 1;
    }
    assert xs[i..] == [];
    UidsDistinct(xs);
  }

  /** The rows the de-duplication keeps have pairwise different `uid`s. */
  lemma UidsDistinct(xs: seq<Account>)
    ensures forall i, j :: 0 <= i < j < |Dedup(xs, Uid)| ==> Dedup(xs, Uid)[i].uid != Dedup(xs, Uid)[j].uid
  {
    var r := Dedup(xs, Uid);
    forall i, j | 0 <= i < j < |r|
      ensures r[i].uid != r[j].uid
    {
      assert Uid(r[i]) != Uid(r[j]);
    }
  }

  /** On a `uid` the first search found, the row that survives is the first
      search's row, even when the e-mail search found the same account. */
  lemma FirstSearchWins(query: Option<string>, fieldHits: Option<seq<Account>>,
                        emailUsers: Option<seq<string>>, emailAccounts: Option<seq<Account>>,
                        listing: Option<seq<Account>>, k: string)
    requires !IsBlank(query.GetOr(""))
    requires k in KeySet(fieldHits.GetOr([]), Uid)
    ensures exists i :: 0 <= i < |SearchAccounts(query, fieldHits, emailUsers, emailAccounts, listing)|
                        && Some(SearchAccounts(query, fieldHits, emailUsers, emailAccounts, listing)[i])
                           == FirstWithKey(fieldHits.GetOr([]), Uid, k)
  {
    var a := fieldHits.GetOr([]);
    var m := Merged(fieldHits, emailUsers, emailAccounts);
    var r := SearchAccounts(query, fieldHits, emailUsers, emailAccounts, listing);
    FirstWithKeyAppend(a, m[|a|..], Uid, k);
    assert m == a + m[|a|..];
    KeySetAppend(a, m[|a|..], Uid);
    assert k in KeySet(r, Uid);
    var i := KeyIndex(r, Uid, k);
    DedupFromFirst(m, Uid, {});
    assert FirstWithKey(m, Uid, Uid(r[i])) == Some(r[i]);
  }

  /** An index at which a key of the key set occurs. */
  lemma {:induction false} KeyIndex<T, K>(xs: seq<T>, key: T -> K, k: K) returns (i: nat)
    requires k in KeySet(xs, key)
    ensures i < |xs| && key(xs[i]) == k
  {
    if key(xs[0]) == k {
      i := 0;
    } else {
      var j := KeyIndex(xs[1..], key, k);
      i := j + 1;
    }
  }

  /** `exportCSV`: nothing without rows; otherwise the same export objects as
      the statement page, in a file named after the selected account's alias,
      `cuenta` when it has none. */
  function AdminExport(rows: seq<Movement>, selected: Option<Account>,
                       dateText: Option<string> -> string, major: int -> string): (f: Option<(string, string)>)
    ensures f.None? <==> |rows| == 0
    ensures f.Some? ==>
      (f.value.0 == "movimientos_" +
        (if selected.Some? && Truthy(selected.value.alias) then selected.value.alias.value else "cuenta") + ".csv")
  {
    if |rows| == 0 then None
    else
      var alias := if selected.Some? then selected.value.alias else None;
      var name := "movimientos_" + OrText(alias, "cuenta") + ".csv";
      match ExportToCsv(ExportRecords(rows, dateText, major))
      case None => None
      case Some(doc) => Some((name, doc))
  }

  /** The bank's export of an account holds exactly what the account holder's
      own statement export holds; only the file name differs. */
  lemma SameExportAsStatement(rows: seq<Movement>, selected: Option<Account>,
                              dateText: Option<string> -> string, major: int -> string)
    ensures AdminExport(rows, selected, dateText, major).Some? ==
            ExtractExport(rows, dateText, major).Some?
    ensures |rows| > 0 ==> AdminExport(rows, selected, dateText, major).value.1 ==
                           ExtractExport(rows, dateText, major).value.1
  {
  }

  /** Entering the page: only bank employees are admitted. */
  function PageAccess(signedIn: bool, myRow: Option<Profile>): (a: Access)
    ensures a == Admitted <==> signedIn && myRow.Some? && myRow.value.role == Some("bank")
    ensures signedIn && a != Admitted ==> a == Refused("Acceso solo para empleados")
  {
    StaffAccess(signedIn, myRow, "Acceso solo para empleados")
  }
}

=== FILE: credit_modal.dfy ===
/** The credit dialog (components/CreditModal.js): the amount the bank
    employee types is parsed by `toCents` and only a positive amount is
    handed on. */
module CreditModal {
  import opened Wrappers
  import opened Money

  datatype Submission =
    | NotRendered               // the dialog is closed
    | Rejected(alert: string)   // `alert(...)`, `onConfirm` is not called
    | Confirmed(cents: int)     // `onConfirm(cents)`

  const InvalidAmount: string := "Importe inválido"

  /** Pressing `Acreditar` with `amount` typed in. */
  function Submit(open: bool, amount: string): (s: Submission)
    ensures !open <==> s == NotRendered
    ensures open && ToCents(Some(amount)) <= 0 ==> s == Rejected(InvalidAmount)
    ensures s.Confirmed? <==> open && ToCents(Some(amount)) > 0
    ensures s.Confirmed? ==> s.cents == ToCents(Some(amount))
  {
    if !open then NotRendered
    else
      var cents := ToCents(Some(amount));
      if cents <= 0 then Rejected(InvalidAmount) else Confirmed(cents)
  }

  /** Text without a single digit is rejected. */
  lemma UnparseableRejected(amount: string)
    requires NoDigits(amount)
    ensures Submit(true, amount) == Rejected(InvalidAmount)
  {
  }

  /** Text with a second comma is rejected. */
  lemma SecondCommaRejected(amount: string)
    requires multiset(amount)[','] >= 2
    ensures Submit(true, amount) == Rejected(InvalidAmount)
  {
  }

  /** The dialog's own example, `5.000,00`, credits five thousand units. */
  lemma PlaceholderAccepted()
    ensures Submit(true, "5.000,00") == Confirmed(500000)
  {
    ArgentineNotation();
  }
}

=== FILE: csv.dfy ===
/** The CSV serialiser of `exportToCSV` (utils/csv.js), without the browser
    download. Fields are escaped by the quoting rules of section 2 of RFC 4180
    (rules 5 to 7); records are joined by a line feed rather than CRLF. */
module Csv {
  import opened Wrappers
  import opened Text

  /** A field value after `String(v)`; `None` is `null` or `undefined`. */
  type Value = Option<string>

  /** A plain object: its own keys, in `Object.keys` order (insertion order
      for the non-numeric keys used here), with their values. */
  type Record = seq<(string, Value)>

  /** `Object.keys(row)`. */
  function Keys(row: Record): (ks: seq<string>)
    ensures |ks| == |row|
    ensures forall i :: 0 <= i < |row| ==> ks[i] == row[i].0
  {
    seq(|row|, i requires 0 <= i < |row| => row[i].0)
  }

  /** `row[key]`: the value of the first entry named `key`, `undefined` when
      there is none. */
  function Lookup(row: Record, key: string): Value {
    if |row| == 0 then None
    else if row[0].0 == key then row[0].1
    else Lookup(row[1..], key)
  }

  /** A key the row lacks reads as `undefined`. */
  lemma {:induction false} LookupAbsent(row: Record, key: string)
    requires key !in Keys(row)
    ensures Lookup(row, key) == None
  {
    if |row| > 0 {
      assert Keys(row)[0] == row[0].0;
      assert Keys(row[1..]) == Keys(row)[1..];
      LookupAbsent(row[1..], key);
    }
  }

  /** A key is read from its first entry, whatever later entries hold. */
  lemma {:induction false} LookupFirst(row: Record, key: string, i: nat)
    requires i < |row| && row[i].0 == key
    requires forall j :: 0 <= j < i ==> row[j].0 != key
    ensures Lookup(row, key) == row[i].1
  {
    if i > 0 {
      assert row[0].0 != key;
      assert row[1..][i - 1] == row[i];
      assert forall j :: 0 <= j < i - 1 ==> row[1..][j] == row[j + 1];
      LookupFirst(row[1..], key, i - 1);
    }
  }

  /** `s.replaceAll('"', '""')`. */
  function DoubleQuotes(s: string): (r: string)
    ensures QuotesPaired(r)
    ensures Unquote(r) == s
  {
    if |s| == 0 then ""
    else
      var t := DoubleQuotes(s[1..]);
      if s[0] == '"' then
        assert ("\"\"" + t)[2..] == t;
        "\"\"" + t
      else
        assert ([s[0]] + t)[1..] == t;
        [s[0]] + t
  }

  /** Inside a quoted field every `"` belongs to an adjacent pair `""`. */
  predicate QuotesPaired(b: string)
    decreases |b|
  {
    if |b| == 0 then true
    else if b[0] == '"' then |b| >= 2 && b[1] == '"' && QuotesPaired(b[2..])
    else QuotesPaired(b[1..])
  }

  /** Collapses each `""` of a quoted field's body back to `"`. */
  function Unquote(b: string): string
    decreases |b|
  {
    if |b| == 0 then ""
    else if |b| >= 2 && b[0] == '"' && b[1] == '"' then "\"" + Unquote(b[2..])
    else [b[0]] + Unquote(b[1..])
  }

  /** `esc(v)`: an absent value is an empty, unquoted field; any other value is
      quoted, with its quotes doubled. */
  function Escape(v: Value): (r: string)
    ensures v.None? ==> r == ""
    ensures v.Some? ==> |r| >= 2 && r[0] == '"' && r[|r| - 1] == '"'
    ensures v.Some? ==> QuotesPaired(r[1..|r| - 1]) && Unquote(r[1..|r| - 1]) == v.value
  {
    match v
    case None => ""
    case Some(s) =>
      var r := "\"" + DoubleQuotes(s) + "\"";
      assert r[1..|r| - 1] == DoubleQuotes(s);
      r
  }

  /** `vs.map(esc)`. */
  function EscapeAll(vs: seq<Value>): (r: seq<string>)
    ensures |r| == |vs|
  {
    if |vs| == 0 then [] else [Escape(vs[0])] + EscapeAll(vs[1..])
  }

  /** `headers.map(h => r[h])`: one value per header, in header order. */
  function Fields(row: Record, headers: seq<string>): (vs: seq<Value>)
    ensures |vs| == |headers|
    ensures forall j :: 0 <= j < |headers| && headers[j] !in Keys(row) ==> vs[j] == None
    ensures forall j, i ::
              (0 <= j < |headers| && 0 <= i < |row| && row[i].0 == headers[j]
               && (forall k :: 0 <= k < i ==> row[k].0 != headers[j]))
              ==> vs[j] == row[i].1
    ensures forall j :: 0 <= j < |headers| ==> vs[j] == Lookup(row, headers[j])
  {
    var vs := seq(|headers|, j requires 0 <= j < |headers| => Lookup(row, headers[j]));
    forall j, i | 0 <= j < |headers| && 0 <= i < |row| && row[i].0 == headers[j]
                  && (forall k :: 0 <= k < i ==> row[k].0 != headers[j])
      ensures vs[j] == row[i].1
    {
      LookupFirst(row, headers[j], i);
    }
    forall j | 0 <= j < |headers| && headers[j] !in Keys(row)
      ensures vs[j] == None
    {
      LookupAbsent(row, headers[j]);
    }
    vs
  }

  /** One data line: the row's escaped fields joined by commas. */
  function DataLine(row: Record, headers: seq<string>): string {
    Join(EscapeAll(Fields(row, headers)), ",")
  }

  /** The `lines` array: the header line from the first row's keys, then one
      line per row. */
  function Lines(rows: seq<Record>): (lines: seq<string>)
    requires |rows| > 0
    ensures |lines| == |rows| + 1
  {
    var headers := Keys(rows[0]);
    [Join(headers, ",")] + seq(|rows|, i requires 0 <= i < |rows| => DataLine(rows[i], headers))
  }

  /** The file content `exportToCSV` downloads; nothing for no rows. */
  function ExportToCsv(rows: seq<Record>): (doc: Option<string>)
    ensures doc.None? <==> |rows| == 0
  {
    if |rows| == 0 then None else Some(Join(Lines(rows), "\n"))
  }

  // A decoder for the fields `esc` produces: quoted fields and empty fields.

  /** Reads a quoted field's body up to its closing quote, undoubling `""`;
      `s` starts just after the opening quote. Returns the body and the text
      after the closing quote. */
  function ReadQuoted(s: string): (r: Option<(string, string)>)
    ensures r.Some? ==> |r.value.1| < |s|
    decreases |s|
  {
    if |s| == 0 then None
    else if s[0] == '"' then
      if |s| >= 2 && s[1] == '"' then
        match ReadQuoted(s[2..])
        case None => None
        case Some((b, rest)) => Some(("\"" + b, rest))
      else Some(("", s[1..]))
    else
      match ReadQuoted(s[1..])
      case None => None
      case Some((b, rest)) => Some(([s[0]] + b, rest))
  }

  /** Splits a line into fields: an empty field is an absent value, a quoted
      field is a present one. */
  function ParseFields(s: string): Option<seq<Value>>
    decreases |s|
  {
    if |s| == 0 then Some([None])
    else if s[0] == ',' then
      match ParseFields(s[1..])
      case None => None
      case Some(fs) => Some([None] + fs)
    else if s[0] == '"' then
      match ReadQuoted(s[1..])
      case None => None
      case Some((b, rest)) =>
        if |rest| == 0 then Some([Some(b)])
        else if rest[0] == ',' then
          match ParseFields(rest[1..])
          case None => None
          case Some(fs) => Some([Some(b)] + fs)
        else None
    else None
  }

  /** The closing quote of an escaped body is found, whatever follows it
      (unless the next character is itself a quote). */
  lemma {:induction false} ReadQuotedEscaped(b: string, rest: string)
    requires |rest| == 0 || rest[0] != '"'
    ensures ReadQuoted(DoubleQuotes(b) + "\"" + rest) == Some((b, rest))
  {
    if |b| == 0 {
      assert DoubleQuotes(b) + "\"" + rest == "\"" + rest;
      ReadQuotedClose(rest);
    } else {
      var t := DoubleQuotes(b[1..]) + "\"" + rest;
      ReadQuotedEscaped(b[1..], rest);
      EscapedCons(b, rest);
      if b[0] == '"' {
        ReadQuotedPair(t, b[1..], rest);
      } else {
        ReadQuotedPlain(b[0], t, b[1..], rest);
      }
      assert [b[0]] + b[1..] == b;
    }
  }

  /** Escaping a non-empty body: its first character, doubled if a quote,
      then the rest escaped. */
  lemma EscapedCons(b: string, rest: string)
    requires |b| > 0
    ensures DoubleQuotes(b) + "\"" + rest ==
            (if b[0] == '"' then "\"\"" else [b[0]]) + (DoubleQuotes(b[1..]) + "\"" + rest)
  {
    var h := if b[0] == '"' then "\"\"" else [b[0]];
    var d := DoubleQuotes(b[1..]);
    assert DoubleQuotes(b) == h + d;
    Regroup(h, d, "\"", rest);
  }

  lemma Regroup(h: string, d: string, q: string, rest: string)
    ensures h + d + q + rest == h + (d + q + rest)
  {
  }

  lemma ReadQuotedClose(rest: string)
    requires |rest| == 0 || rest[0] != '"'
    ensures ReadQuoted("\"" + rest) == Some(("", rest))
  {
    assert ("\"" + rest)[1..] == rest;
  }

  lemma ReadQuotedPair(t: string, x: string, r: string)
    requires ReadQuoted(t) == Some((x, r))
    ensures ReadQuoted("\"\"" + t) == Some(("\"" + x, r))
  {
    assert ("\"\"" + t)[2..] == t;
  }

  lemma ReadQuotedPlain(c: char, t: string, x: string, r: string)
    requires c != '"' && ReadQuoted(t) == Some((x, r))
    ensures ReadQuoted([c] + t) == Some(([c] + x, r))
  {
    assert ([c] + t)[1..] == t;
  }

  /** A line opening with a quoted field whose body reads as `b`. */
  lemma ParseQuotedStep(s: string, b: string, tail: string)
    requires |s| > 0 && s[0] == '"' && ReadQuoted(s[1..]) == Some((b, tail))
    requires |tail| == 0 || tail[0] == ','
    ensures |tail| == 0 ==> ParseFields(s) == Some([Some(b)])
    ensures |tail| > 0 && ParseFields(tail[1..]).Some? ==>
      ParseFields(s) == Some([Some(b)] + ParseFields(tail[1..]).value)
  {
  }

  /** A quoted field at the start of a line decodes to its value. */
  lemma ParseQuotedHead(b: string, tail: string)
    requires |tail| == 0 || tail[0] == ','
    ensures |tail| == 0 ==> ParseFields(Escape(Some(b)) + tail) == Some([Some(b)])
    ensures |tail| > 0 && ParseFields(tail[1..]).Some? ==>
      ParseFields(Escape(Some(b)) + tail) == Some([Some(b)] + ParseFields(tail[1..]).value)
  {
    EscapedLine(b, tail);
    ReadQuotedEscaped(b, tail);
    ParseQuotedStep(Escape(Some(b)) + tail, b, tail);
  }

  /** A line opening with an escaped value: the quote, then the body the
      closing quote ends. */
  lemma EscapedLine(b: string, tail: string)
    ensures var s := Escape(Some(b)) + tail;
            |s| > 0 && s[0] == '"' && s[1..] == DoubleQuotes(b) + "\"" + tail
  {
    var body := DoubleQuotes(b) + "\"" + tail;
    assert Escape(Some(b)) + tail == "\"" + body;
  }

  /** An empty field at the start of a line decodes to an absent value. */
  lemma ParseEmptyHead(tail: string)
    requires |tail| > 0 && tail[0] == ',' && ParseFields(tail[1..]).Some?
    ensures ParseFields(tail) == Some([None] + ParseFields(tail[1..]).value)
  {
  }

  /** Joining puts the first part before a separator and the rest. */
  lemma JoinCons(parts: seq<string>)
    requires |parts| > 1
    ensures Join(parts, ",") == parts[0] + ("," + Join(parts[1..], ","))
  {
  }

  lemma EscapeAllCons(vs: seq<Value>)
    requires |vs| > 0
    ensures EscapeAll(vs)[0] == Escape(vs[0]) && EscapeAll(vs)[1..] == EscapeAll(vs[1..])
  {
  }

  /** Decoding an escaped, comma-joined line gives back the values, one per
      field, absent values included. */
  lemma {:induction false} FieldsRoundTrip(vs: seq<Value>)
    requires |vs| > 0
    ensures ParseFields(Join(EscapeAll(vs), ",")) == Some(vs)
  {
    var e := Escape(vs[0]);
    var tail := if |vs| == 1 then "" else "," + Join(EscapeAll(vs[1..]), ",");
    EscapeAllCons(vs);
    if |vs| > 1 {
      JoinCons(EscapeAll(vs));
      assert tail[1..] == Join(EscapeAll(vs[1..]), ",");
      FieldsRoundTrip(vs[1..]);
      assert vs == [vs[0]] + vs[1..];
    } else {
      assert Join(EscapeAll(vs), ",") == e + tail;
    }
    match vs[0]
    case None =>
      assert e + tail == tail;
      if |vs| > 1 {
        ParseEmptyHead(tail);
      } else {
        assert vs == [None];
      }
    case Some(b) =>
      ParseQuotedHead(b, tail);
      if |vs| == 1 {
        assert vs == [Some(b)];
      }
  }

  /** Every data line decodes to exactly one value per header, in header
      order, a key the row lacks giving an empty field; keys that only later
      rows have are not part of any line. */
  lemma DataLinesDecode(rows: seq<Record>, i: nat)
    requires i < |rows|
    requires |Keys(rows[0])| > 0
    ensures Lines(rows)[i + 1] == DataLine(rows[i], Keys(rows[0]))
    ensures ParseFields(Lines(rows)[i + 1]) == Some(Fields(rows[i], Keys(rows[0])))
    ensures |Fields(rows[i], Keys(rows[0]))| == |Keys(rows[0])|
  {
    FieldsRoundTrip(Fields(rows[i], Keys(rows[0])));
  }

  /** The header line is the first row's keys joined by commas; it splits
      back into those keys when none of them holds a comma. */
  lemma HeaderLineDecodes(rows: seq<Record>)
    requires |rows| > 0
    requires |rows[0]| > 0
    requires forall k :: 0 <= k < |rows[0]| ==> ',' !in rows[0][k].0
    ensures Lines(rows)[0] == Join(Keys(rows[0]), ",")
    ensures Split(Lines(rows)[0], ',') == Keys(rows[0])
  {
    SplitJoin(Keys(rows[0]), ',');
  }

  /** A value with no occurrence of `c`; an absent value has none. */
  predicate ValueFree(v: Value, c: char) {
    v.Some? ==> c !in v.value
  }

  /** No value of the row holds `c`. */
  predicate ValuesFree(row: Record, c: char) {
    forall i :: 0 <= i < |row| ==> ValueFree(row[i].1, c)
  }

  lemma {:induction false} DoubleQuotesFree(s: string, c: char)
    requires c != '"' && c !in s
    ensures c !in DoubleQuotes(s)
  {
    if |s| > 0 {
      assert c !in s[1..];
      DoubleQuotesFree(s[1..], c);
    }
  }

  lemma EscapeFree(v: Value, c: char)
    requires c != '"' && ValueFree(v, c)
    ensures c !in Escape(v)
  {
    if v.Some? {
      DoubleQuotesFree(v.value, c);
      assert Escape(v) == "\"" + DoubleQuotes(v.value) + "\"";
    }
  }

  lemma {:induction false} EscapeAllFree(vs: seq<Value>, c: char)
    requires c != '"'
    requires forall k :: 0 <= k < |vs| ==> ValueFree(vs[k], c)
    ensures forall k :: 0 <= k < |vs| ==> c !in EscapeAll(vs)[k]
  {
    if |vs| > 0 {
      EscapeAllCons(vs);
      EscapeFree(vs[0], c);
      EscapeAllFree(vs[1..], c);
      forall k | 1 <= k < |vs|
        ensures c !in EscapeAll(vs)[k]
      {
        assert EscapeAll(vs)[k] == EscapeAll(vs[1..])[k - 1];
      }
    }
  }

  lemma {:induction false} JoinFree(parts: seq<string>, sep: string, c: char)
    requires c !in sep
    requires forall k :: 0 <= k < |parts| ==> c !in parts[k]
    ensures c !in Join(parts, sep)
  {
    if |parts| > 1 {
      JoinFree(parts[1..], sep, c);
    }
  }

  lemma {:induction false} LookupFree(row: Record, key: string, c: char)
    requires ValuesFree(row, c)
    ensures ValueFree(Lookup(row, key), c)
  {
    if |row| > 0 && row[0].0 != key {
      assert ValueFree(row[0].1, c);
      LookupFree(row[1..], key, c);
    }
  }

  /** A data line holds no `c` when no value of its row does. */
  lemma DataLineFree(row: Record, headers: seq<string>, c: char)
    requires c != '"' && c != ','
    requires ValuesFree(row, c)
    ensures c !in DataLine(row, headers)
  {
    var vs := Fields(row, headers);
    forall k | 0 <= k < |vs|
      ensures ValueFree(vs[k], c)
    {
      LookupFree(row, headers[k], c);
    }
    EscapeAllFree(vs, c);
    JoinFree(EscapeAll(vs), ",", c);
  }

  /** The downloaded document splits at its line feeds into exactly the
      `lines` array, provided no column name and no value holds a line
      feed. */
  lemma DocumentLines(rows: seq<Record>)
    requires |rows| > 0
    requires forall k :: 0 <= k < |rows[0]| ==> '\n' !in rows[0][k].0
    requires forall i :: 0 <= i < |rows| ==> ValuesFree(rows[i], '\n')
    ensures Split(ExportToCsv(rows).value, '\n') == Lines(rows)
  {
    var lines := Lines(rows);
    forall k | 0 <= k < |lines|
      ensures '\n' !in lines[k]
    {
      LineFree(rows, k);
    }
    assert ExportToCsv(rows).value == Join(lines, ['\n']);
    SplitJoin(lines, '\n');
  }

  lemma LineFree(rows: seq<Record>, k: nat)
    requires |rows| > 0 && k <= |rows|
    requires forall k :: 0 <= k < |rows[0]| ==> '\n' !in rows[0][k].0
    requires forall i :: 0 <= i < |rows| ==> ValuesFree(rows[i], '\n')
    ensures '\n' !in Lines(rows)[k]
  {
    var headers := Keys(rows[0]);
    if k == 0 {
      JoinFree(headers, ",", '\n');
    } else {
      assert Lines(rows)[k] == DataLine(rows[k - 1], headers);
      DataLineFree(rows[k - 1], headers, '\n');
    }
  }
}

=== FILE: home.dfy ===
/** The client's transfer form (pages/home.js, `doTransfer`): validation of
    the typed amount, the request handed to the `transfer_funds` procedure,
    and what the page shows for the procedure's reply. The procedure itself
    runs in the database; its reply is a parameter. */
module Home {
  import opened Wrappers
  import opened Text
  import opened Money
  import CreditModal

  /** The arguments of `transfer_funds`. */
  datatype TransferRequest = TransferRequest(originUid: string, dest: string, amount: int, concept: string)

  const InvalidAmount: string := "Importe inválido"
  const DefaultConcept: string := "Transferencia"
  const Done: string := "Transferencia realizada"

  /** Validation and request construction: a non-positive amount is refused
      before any request exists. */
  function PrepareTransfer(meId: string, dest: string, amount: string, concept: string): (r: Result<TransferRequest, string>)
    ensures r.Err? <==> ToCents(Some(amount)) <= 0
    ensures r.Err? ==> r.error == InvalidAmount
    ensures r.Ok? ==> r.value.originUid == meId && r.value.amount == ToCents(Some(amount)) > 0
    ensures r.Ok? ==> r.value.dest == Trim(dest)
    ensures r.Ok? ==> (r.value.concept == DefaultConcept <==> concept == "" || concept == DefaultConcept)
    ensures r.Ok? && concept != "" ==> r.value.concept == concept
  {
    var cents := ToCents(Some(amount));
    if cents <= 0 then Err(InvalidAmount)
    else Ok(TransferRequest(meId, Trim(dest), cents, if concept == "" then DefaultConcept else concept))
  }

  /** The page after pressing `Transferir`: the messages, the request sent
      if any, and the page the browser is sent to if any. */
  datatype Outcome = Outcome(error: string, ok: string, request: Option<TransferRequest>, redirect: Option<string>)

  /** `doTransfer`. Both messages are cleared first, so the messages shown
      before play no part; `reply` is the procedure's id or error message. */
  function Transfer(shownError: string, shownOk: string, meId: string, dest: string, amount: string,
                    concept: string, reply: Result<string, string>): (o: Outcome)
    ensures o.request.None? <==> ToCents(Some(amount)) <= 0
    ensures o.request.None? ==> o == Outcome(InvalidAmount, "", None, None)
    ensures o.request.Some? ==> PrepareTransfer(meId, dest, amount, concept) == Ok(o.request.value)
    ensures o.request.Some? && reply.Err? ==> o.error == reply.error && o.ok == "" && o.redirect.None?
    ensures o.request.Some? && reply.Ok? ==>
      o.error == "" && o.ok == Done && o.redirect == Some("/receipt?tx=" + reply.value)
  {
    match PrepareTransfer(meId, dest, amount, concept)
    case Err(e) => Outcome(e, "", None, None)
    case Ok(req) =>
      match reply
      case Err(m) => Outcome(m, "", Some(req), None)
      case Ok(id) => Outcome("", Done, Some(req), Some("/receipt?tx=" + id))
  }

  /** A successful transfer leads to the receipt of the id the procedure
      returned. */
  lemma ReceiptOfReturnedId(meId: string, dest: string, amount: string, concept: string, id: string)
    ensures var o := Transfer("", "", meId, dest, amount, concept, Ok(id));
            o.redirect.Some? <==> ToCents(Some(amount)) > 0
    ensures var o := Transfer("", "", meId, dest, amount, concept, Ok(id));
            o.redirect.Some? ==> o.redirect.value[|"/receipt?tx="|..] == id
  {
  }

  /** The transfer form and the bank's credit dialog accept exactly the same
      amount texts, and read them as the same number of cents. */
  lemma SameAmountsAsCreditDialog(meId: string, dest: string, amount: string, concept: string)
    ensures PrepareTransfer(meId, dest, amount, concept).Ok? <==>
            CreditModal.Submit(true, amount).Confirmed?
    ensures PrepareTransfer(meId, dest, amount, concept).Ok? ==>
            PrepareTransfer(meId, dest, amount, concept).value.amount == CreditModal.Submit(true, amount).cents
  {
  }
}

=== FILE: layout.dfy ===
/** The navigation bar of every page (components/Layout.js): which links
    show for which user. */
module Layout {
  import opened Wrappers
  import opened Records
  import opened Login

  datatype Nav = Nav(inicio: bool, panelAdmin: bool, salir: bool, ingresar: bool, registrarse: bool)

  /** The links rendered for `user`. */
  function NavLinks(user: Option<Profile>): (n: Nav)
    ensures n.inicio <==> ApprovedClient(user)
    ensures n.panelAdmin <==> Employee(user)
    ensures n.salir <==> user.Some?
    ensures user.None? ==> n == Nav(false, false, false, true, true)
    ensures user.Some? ==> !n.ingresar && !n.registrarse
  {
    match user
    case None => Nav(false, false, false, true, true)
    case Some(u) =>
      Nav(u.role == Some("client") && u.status == Some("approved"), u.role == Some("bank"), true, false, false)
  }

  /** The `Inicio` link shows exactly for the users the login page sends to
      `/home`, and `Panel Admin` exactly for those it sends to `/admin`. */
  lemma LinksMatchLoginRedirects(user: Option<Profile>)
    ensures NavLinks(user).inicio <==> LoginEffect(user) == Redirect("/home")
    ensures NavLinks(user).panelAdmin <==> LoginEffect(user) == Redirect("/admin")
  {
  }

  /** A signed-in user sees at most one of `Inicio` and `Panel Admin`. */
  lemma AtMostOneHome(user: Option<Profile>)
    ensures !(NavLinks(user).inicio && NavLinks(user).panelAdmin)
  {
  }
}

=== FILE: login.dfy ===
/** The login page's reaction to the signed-in user (pages/index.js): a
    small decision table over the role and the approval status. */
module Login {
  import opened Wrappers
  import opened Records

  datatype Effect =
    | Stay                     // nothing happens
    | Redirect(path: string)   // `router.replace(path)`
    | Notice(message: string)  // `setMessage(message)`

  const PendingNotice: string := "Tu cuenta está pendiente de aprobación. Por favor espera."

  /** A client whose account has been approved. */
  predicate ApprovedClient(user: Option<Profile>) {
    user.Some? && user.value.role == Some("client") && user.value.status == Some("approved")
  }

  /** A bank employee. */
  predicate Employee(user: Option<Profile>) {
    user.Some? && user.value.role == Some("bank")
  }

  /** The effect run whenever `user` changes. */
  function LoginEffect(user: Option<Profile>): (e: Effect)
    ensures user.None? ==> e == Stay
    ensures e == Redirect("/admin") <==> Employee(user)
    ensures e == Redirect("/home") <==> ApprovedClient(user)
    ensures e.Notice? <==> user.Some? && user.value.role == Some("client") && user.value.status != Some("approved")
    ensures e.Notice? ==> e.message == PendingNotice
    ensures user.Some? && user.value.role != Some("bank") && user.value.role != Some("client") ==> e == Stay
  {
    if user.None? then Stay
    else if user.value.role == Some("bank") then Redirect("/admin")
    else if user.value.role == Some("client") then
      if user.value.status == Some("approved") then Redirect("/home") else Notice(PendingNotice)
    else Stay
  }

  /** The status plays no part for an employee. */
  lemma EmployeeStatusIgnored(user: Profile, status: Option<string>)
    requires user.role == Some("bank")
    ensures LoginEffect(Some(user)) == LoginEffect(Some(user.(status := status))) == Redirect("/admin")
  {
  }
}

=== FILE: money.dfy ===
/** The string branch of `toCents` (utils/money.js): an amount typed in
    Argentine notation ("5.000,00") becomes integer cents. Dots are dropped
    as thousands separators, the first comma becomes the decimal point, and
    `Number` reads the result; anything it cannot read gives 0. */
module Money {
  import opened Wrappers
  import opened Text
  import opened Numerals
  import opened Seqs

  /** `s.replace(/\./g, '')`. */
  function RemoveDots(s: string): (r: string)
    ensures '.' !in r
    ensures IsSubsequence(r, s)
    ensures forall i :: 0 <= i < |r| ==> r[i] in s
    ensures forall c :: c != '.' ==> multiset(r)[c] == multiset(s)[c]
  {
    var r := Filter(s, (c: char) => c != '.');
    FilterCount(s, (c: char) => c != '.');
    assert forall i :: 0 <= i < |r| ==> r[i] in multiset(r);
    r
  }

  lemma RemoveDotsNoDots(s: string)
    requires '.' !in s
    ensures RemoveDots(s) == s
  {
    FilterAll(s, (c: char) => c != '.');
  }

  /** `s.replace(',', '.')`: only the first comma is replaced. */
  function ReplaceFirstComma(s: string): (r: string)
    ensures |r| == |s|
    ensures ',' !in s ==> r == s
    ensures ',' in s ==> r[IndexOf(s, ',')] == '.'
    ensures ',' in s ==> forall j :: 0 <= j < |s| && j != IndexOf(s, ',') ==> r[j] == s[j]
    ensures ',' in s ==> multiset(r)[','] == multiset(s)[','] - 1
  {
    if ',' in s then
      var i := IndexOf(s, ',');
      var r := s[..i] + "." + s[i + 1..];
      assert s == s[..i] + [','] + s[i + 1..];
      r
    else s
  }

  /** The text handed to `Number`: trimmed, dots removed, first comma made
      the decimal point. `None` is `null` or `undefined`, read as ''. */
  function Normalise(value: Option<string>): string {
    ReplaceFirstComma(RemoveDots(Trim(value.GetOr(""))))
  }

  /** The cents of `ip.fp`: at most two fraction digits, and either side of
      the point may be empty but not both. */
  function FractionCents(ip: string, fp: string): Option<nat> {
    if AllDigits(ip) && AllDigits(fp) && |fp| <= 2 && |ip| + |fp| > 0
    then Some(Cents(ip, fp))
    else None
  }

  /** The integer part times 100 plus the fraction scaled to cents. */
  function Cents(ip: string, fp: string): nat
    requires AllDigits(ip) && AllDigits(fp) && |fp| <= 2
  {
    DigitsValue(ip) * 100 + DigitsValue(fp) * Pow10(2 - |fp|)
  }

  /** `Number(b) * 100` for an unsigned decimal numeral. */
  function UnsignedCents(b: string): Option<nat> {
    if '.' in b then
      var i := IndexOf(b, '.');
      FractionCents(b[..i], b[i + 1..])
    else if |b| > 0 && AllDigits(b) then Some(DigitsValue(b) * 100)
    else None
  }

  function Signed(negative: bool, m: nat): int {
    var v: int := m;
    if negative then -v else v
  }

  /** `Number(t) * 100` for text without surrounding white space: an
      optional sign, then an unsigned numeral; the empty string reads as 0. */
  function SignedCents(t: string): Option<int> {
    if |t| == 0 then Some(0)
    else
      var body := if t[0] == '-' || t[0] == '+' then t[1..] else t;
      match UnsignedCents(body)
      case None => None
      case Some(m) => Some(Signed(t[0] == '-', m))
  }

  /** `Math.round(Number(text) * 100)` when `Number` reads a finite value,
      `None` when it reads NaN. `Number` trims its argument first. */
  function NumberCents(text: string): Option<int> {
    SignedCents(Trim(text))
  }

  /** `toCents(value)` for a string, `null` or `undefined` argument: text
      without a digit, or with a second comma that `replace(',', '.')` leaves
      in place, gives 0. */
  function ToCents(value: Option<string>): (r: int)
    ensures NoDigits(value.GetOr("")) ==> r == 0
    ensures multiset(value.GetOr(""))[','] >= 2 ==> r == 0
  {
    NoDigitsUnread(value.GetOr(""));
    TwoCommasUnread(value.GetOr(""));
    match NumberCents(Normalise(value))
    case Some(c) => c
    case None => 0
  }

  /** After normalisation the only dot left, if any, sits where the first
      comma was. */
  lemma NormaliseShape(s: string)
    ensures |Normalise(Some(s))| == |RemoveDots(Trim(s))|
    ensures forall j :: 0 <= j < |Normalise(Some(s))| && Normalise(Some(s))[j] == '.' ==>
      ',' in RemoveDots(Trim(s)) && j == IndexOf(RemoveDots(Trim(s)), ',')
    ensures ',' in RemoveDots(Trim(s)) ==>
      Normalise(Some(s))[IndexOf(RemoveDots(Trim(s)), ',')] == '.'
  {
    var t := RemoveDots(Trim(s));
    var n := Normalise(Some(s));
    assert n == ReplaceFirstComma(t);
    forall j | 0 <= j < |n| && n[j] == '.'
      ensures ',' in t && j == IndexOf(t, ',')
    {
      assert t[j] != '.';
    }
  }

  /** A string holding a comma never reads as an unsigned numeral. */
  lemma {:induction false} UnsignedRejectsComma(b: string)
    requires ',' in b
    ensures UnsignedCents(b) == None
  {
    var k := IndexOf(b, ',');
    if '.' in b {
      var i := IndexOf(b, '.');
      if k < i {
        assert b[..i][k] == ',';
      } else {
        assert b[i + 1..][k - i - 1] == ',';
      }
    }
  }

  /** A string holding a comma reads as NaN. */
  lemma NumberRejectsComma(text: string)
    requires ',' in text
    ensures NumberCents(text) == None
  {
    var t := Trim(text);
    TrimKeeps(text, ',');
    assert ',' in multiset(t);
    var k := IndexOf(t, ',');
    if t[0] == '-' || t[0] == '+' {
      assert t[1..][k - 1] == ',';
      UnsignedRejectsComma(t[1..]);
    } else {
      UnsignedRejectsComma(t);
    }
  }

  /** `null`, `undefined`, the empty string and white space all give 0. */
  lemma BlankIsZero(value: Option<string>)
    requires value.None? || IsBlank(value.value)
    ensures ToCents(value) == 0
  {
    assert Trim(value.GetOr("")) == "";
    RemoveDotsNoDots("");
  }

  /** Only the first comma becomes a decimal point: text with two commas
      keeps one after normalisation, and `Number` cannot read it. */
  lemma TwoCommasUnread(s: string)
    ensures multiset(s)[','] >= 2 ==> NumberCents(Normalise(Some(s))) == None
  {
    if multiset(s)[','] >= 2 {
      TrimKeeps(s, ',');
      var t := RemoveDots(Trim(s));
      assert multiset(t)[','] >= 2;
      SecondCommaSurvives(t);
      NumberRejectsComma(Normalise(Some(s)));
    }
  }

  lemma SecondCommaSurvives(t: string)
    requires multiset(t)[','] >= 2
    ensures ',' in ReplaceFirstComma(t)
  {
    assert ',' in multiset(t);
    assert multiset(ReplaceFirstComma(t))[','] >= 1;
  }

  predicate NoDigits(s: string) {
    forall i :: 0 <= i < |s| ==> !IsDigit(s[i])
  }

  lemma TrimNoDigits(s: string)
    requires NoDigits(s)
    ensures NoDigits(Trim(s))
  {
    var a := TrimStart(s);
    NoDigitsSlice(s, |s| - |a|, |s|);
    var t := TrimEnd(a);
    NoDigitsSlice(a, 0, |t|);
  }

  lemma NoDigitsSlice(s: string, i: nat, j: nat)
    requires i <= j <= |s| && NoDigits(s)
    ensures NoDigits(s[i..j])
  {
    assert forall k :: 0 <= k < j - i ==> s[i..j][k] == s[i + k];
  }

  lemma NormaliseNoDigits(s: string)
    requires NoDigits(s)
    ensures NoDigits(Normalise(Some(s)))
  {
    TrimNoDigits(s);
    var t := RemoveDots(Trim(s));
    forall i | 0 <= i < |t| ensures !IsDigit(t[i]) {
      assert t[i] in Trim(s);
    }
    var n := ReplaceFirstComma(t);
    forall i | 0 <= i < |n| ensures !IsDigit(n[i]) {
      if ',' in t && i == IndexOf(t, ',') {
        assert n[i] == '.';
      } else {
        assert n[i] == t[i];
      }
    }
  }

  /** A numeral needs a digit: without one, the read is NaN or zero. */
  lemma SignedNoDigits(t: string)
    requires NoDigits(t)
    ensures SignedCents(t) == None || SignedCents(t) == Some(0)
  {
    if |t| > 0 {
      var body := if t[0] == '-' || t[0] == '+' then t[1..] else t;
      assert NoDigits(body);
      if '.' in body {
        var i := IndexOf(body, '.');
        if i > 0 { assert !IsDigit(body[..i][0]); }
        if i + 1 < |body| { assert !IsDigit(body[i + 1..][0]); }
      } else if |body| > 0 {
        assert !IsDigit(body[0]);
      }
    }
  }

  /** Text without any digit is read by `Number` as NaN or as 0. */
  lemma NoDigitsUnread(s: string)
    ensures NoDigits(s) ==> NumberCents(Normalise(Some(s))) in {None, Some(0)}
  {
    if NoDigits(s) {
      NormaliseNoDigits(s);
      TrimNoDigits(Normalise(Some(s)));
      SignedNoDigits(Trim(Normalise(Some(s))));
    }
  }

  /** The optional minus sign of the grammar `[-]digits[,digits]`. */
  function Sign(negative: bool): string {
    if negative then "-" else ""
  }

  /** Text already trimmed and free of dots is only touched at its first comma. */
  lemma NormaliseClean(s: string)
    requires Trim(s) == s && '.' !in s
    ensures Normalise(Some(s)) == ReplaceFirstComma(s)
  {
    RemoveDotsNoDots(s);
  }

  lemma UnsignedWhole(ip: string)
    requires |ip| > 0 && AllDigits(ip)
    ensures UnsignedCents(ip) == Some(DigitsValue(ip) * 100)
  {
    assert '.' !in ip by {
      forall k | 0 <= k < |ip| ensures ip[k] != '.' { assert IsDigit(ip[k]); }
    }
  }

  lemma UnsignedFraction(ip: string, fp: string)
    requires |ip| > 0 && AllDigits(ip) && AllDigits(fp) && |fp| <= 2
    ensures UnsignedCents(ip + "." + fp) == FractionCents(ip, fp)
  {
    var body := ip + "." + fp;
    assert '.' !in ip by {
      forall k | 0 <= k < |ip| ensures ip[k] != '.' { assert IsDigit(ip[k]); }
    }
    IndexOfAfter(ip, '.', fp);
    assert body == ip + ['.'] + fp;
    assert body[..|ip|] == ip;
    assert body[|ip| + 1..] == fp;
  }

  lemma SignedRead(negative: bool, body: string, m: nat)
    requires |body| > 0 && IsDigit(body[0])
    requires UnsignedCents(body) == Some(m)
    ensures SignedCents(Sign(negative) + body) == Some(Signed(negative, m))
  {
    var t := Sign(negative) + body;
    if negative {
      assert t[1..] == body;
    } else {
      assert t == body;
    }
  }

  /** A signed numeral reads as its unsigned part, negated after a minus. */
  lemma NumberSigned(negative: bool, body: string, m: nat)
    requires |body| > 0 && IsDigit(body[0]) && !IsSpace(body[|body| - 1])
    requires UnsignedCents(body) == Some(m)
    ensures NumberCents(Sign(negative) + body) == Some(Signed(negative, m))
  {
    var t := Sign(negative) + body;
    assert t[|t| - 1] == body[|body| - 1];
    assert !IsSpace(t[0]) by {
      if !negative { assert t[0] == body[0]; }
    }
    TrimUnpadded(t);
    SignedRead(negative, body, m);
  }

  /** A digit string with an optional minus sign contains neither `.` nor `,`. */
  lemma SignedDigitsPlain(negative: bool, ip: string)
    requires AllDigits(ip)
    ensures '.' !in Sign(negative) + ip && ',' !in Sign(negative) + ip
  {
    var s := Sign(negative) + ip;
    forall k | 0 <= k < |s| ensures s[k] != '.' && s[k] != ',' {
      if k >= |Sign(negative)| { assert s[k] == ip[k - |Sign(negative)|]; }
    }
  }

  lemma Splice(a: string, c: char, b: string)
    ensures (a + [c] + b)[..|a|] == a && (a + [c] + b)[|a| + 1..] == b
  {
  }

  lemma Regroup(x: string, y: string, c: char, z: string)
    ensures x + y + [c] + z == x + (y + [c] + z)
  {
  }

  /** Trimmed, dot-free text whose first comma follows `a`: the comma
      becomes the decimal point. */
  lemma NormaliseAt(a: string, fp: string)
    requires ',' !in a
    requires Trim(a + "," + fp) == a + "," + fp && '.' !in a + "," + fp
    ensures Normalise(Some(a + "," + fp)) == a + "." + fp
  {
    NormaliseClean(a + "," + fp);
    IndexOfAfter(a, ',', fp);
    Splice(a, ',', fp);
  }

  /** Normalising `[-]digits,fraction` only turns the comma into a point. */
  lemma NormaliseDecimal(negative: bool, ip: string, fp: string)
    requires |ip| > 0 && AllDigits(ip) && AllDigits(fp)
    ensures Normalise(Some(Sign(negative) + ip + "," + fp)) == Sign(negative) + (ip + "." + fp)
  {
    var a := Sign(negative) + ip;
    var s := a + "," + fp;
    SignedDigitsPlain(negative, ip);
    assert '.' !in s by {
      forall k | 0 <= k < |s| ensures s[k] != '.' {
        if k > |a| { assert s[k] == fp[k - |a| - 1]; assert IsDigit(fp[k - |a| - 1]); }
      }
    }
    assert !IsSpace(s[0]) by {
      if !negative { assert s[0] == ip[0]; }
    }
    assert !IsSpace(s[|s| - 1]) by {
      if |fp| > 0 { assert s[|s| - 1] == fp[|fp| - 1]; }
    }
    TrimUnpadded(s);
    NormaliseAt(a, fp);
    Regroup(Sign(negative), ip, '.', fp);
  }

  lemma FractionValue(ip: string, fp: string)
    requires |ip| > 0 && AllDigits(ip) && AllDigits(fp) && |fp| <= 2
    ensures FractionCents(ip, fp) == Some(Cents(ip, fp))
  {
  }

  lemma ToCentsRead(value: Option<string>, v: int)
    requires NumberCents(Normalise(value)) == Some(v)
    ensures ToCents(value) == v
  {
  }

  /** `Number` reads `[-]digits.fraction` as the signed cents. */
  lemma ReadDecimal(negative: bool, ip: string, fp: string)
    requires |ip| > 0 && AllDigits(ip) && AllDigits(fp) && |fp| <= 2
    ensures NumberCents(Sign(negative) + (ip + "." + fp)) == Some(Signed(negative, Cents(ip, fp)))
  {
    var body := ip + "." + fp;
    assert body[0] == ip[0];
    assert !IsSpace(body[|body| - 1]) by {
      if |fp| > 0 { assert body[|body| - 1] == fp[|fp| - 1]; }
    }
    UnsignedFraction(ip, fp);
    FractionValue(ip, fp);
    NumberSigned(negative, body, Cents(ip, fp));
  }

  /** `[-]digits,fraction` with at most two fraction digits reads as the
      signed integer part times 100 plus the fraction scaled to cents. */
  lemma DecimalAmount(negative: bool, ip: string, fp: string)
    requires |ip| > 0 && AllDigits(ip) && AllDigits(fp) && |fp| <= 2
    ensures ToCents(Some(Sign(negative) + ip + "," + fp)) == Signed(negative, Cents(ip, fp))
  {
    NormaliseDecimal(negative, ip, fp);
    ReadDecimal(negative, ip, fp);
    ToCentsRead(Some(Sign(negative) + ip + "," + fp), Signed(negative, Cents(ip, fp)));
  }

  /** `[-]digits` without a comma reads as the signed integer times 100. */
  lemma WholeAmount(negative: bool, ip: string)
    requires |ip| > 0 && AllDigits(ip)
    ensures ToCents(Some(Sign(negative) + ip)) == Signed(negative, DigitsValue(ip) * 100)
  {
    var s := Sign(negative) + ip;
    SignedDigitsPlain(negative, ip);
    assert !IsSpace(s[0]) by {
      if !negative { assert s[0] == ip[0]; }
    }
    assert s[|s| - 1] == ip[|ip| - 1];
    TrimUnpadded(s);
    NormaliseClean(s);
    UnsignedWhole(ip);
    NumberSigned(negative, ip, DigitsValue(ip) * 100);
  }

  /** Removing dots introduces no white space. */
  lemma RemoveDotsNoSpace(s: string)
    requires forall i :: 0 <= i < |s| ==> !IsSpace(s[i])
    ensures forall i :: 0 <= i < |RemoveDots(s)| ==> !IsSpace(RemoveDots(s)[i])
  {
    var r := RemoveDots(s);
    forall i | 0 <= i < |r| ensures !IsSpace(r[i]) {
      assert r[i] in s;
      var j :| 0 <= j < |s| && s[j] == r[i];
    }
  }

  lemma NormaliseWithoutDots(s: string)
    requires forall i :: 0 <= i < |s| ==> !IsSpace(s[i])
    ensures Normalise(Some(s)) == Normalise(Some(RemoveDots(s)))
  {
    var r := RemoveDots(s);
    SpaceFreeTrim(s);
    RemoveDotsNoSpace(s);
    SpaceFreeTrim(r);
    RemoveDotsNoDots(r);
  }

  /** Text without any white space is its own trim. */
  lemma SpaceFreeTrim(s: string)
    requires forall i :: 0 <= i < |s| ==> !IsSpace(s[i])
    ensures Trim(s) == s
  {
    TrimUnpadded(s);
  }

  /** Dots never act as a decimal point: with no white space in the input,
      dropping every dot first changes nothing. */
  lemma DotsIgnored(s: string)
    requires forall i :: 0 <= i < |s| ==> !IsSpace(s[i])
    ensures ToCents(Some(s)) == ToCents(Some(RemoveDots(s)))
  {
    NormaliseWithoutDots(s);
    SameTextSameCents(Some(s), Some(RemoveDots(s)));
  }

  /** `toCents` depends on its argument only through the normalised text. */
  lemma SameTextSameCents(v: Option<string>, w: Option<string>)
    requires Normalise(v) == Normalise(w)
    ensures ToCents(v) == ToCents(w)
  {
  }

  /** Removing the dots around a single dot between dot-free parts. */
  lemma RemoveOneDot(a: string, b: string)
    requires '.' !in a && '.' !in b
    ensures RemoveDots(a + "." + b) == a + b
  {
    var p := (c: char) => c != '.';
    FilterAppend(a + ".", b, p);
    FilterAppend(a, ".", p);
    RemoveDotsNoDots(a);
    RemoveDotsNoDots(b);
  }

  /** A dot between two runs of digits is a thousands separator: it is
      dropped and the digits read as one whole number. */
  lemma DotJoinsDigits(negative: bool, a: string, b: string)
    requires AllDigits(a) && AllDigits(b) && |a| > 0
    ensures ToCents(Some(Sign(negative) + a + "." + b)) == Signed(negative, DigitsValue(a + b) * 100)
  {
    var s := Sign(negative) + a + "." + b;
    var d := a + b;
    DigitsJoin(a, b);
    SignedJoin(negative, a, b);
    DigitsNoSpace(s, negative, a, b);
    DotsIgnored(s);
    RemoveOneDot(Sign(negative) + a, b);
    WholeAmount(negative, d);
  }

  lemma SignedJoin(negative: bool, a: string, b: string)
    requires AllDigits(a)
    ensures '.' !in Sign(negative) + a
    ensures Sign(negative) + a + b == Sign(negative) + (a + b)
  {
    var p := Sign(negative) + a;
    forall i | 0 <= i < |p|
      ensures p[i] != '.'
    {
      if i >= |Sign(negative)| {
        assert p[i] == a[i - |Sign(negative)|];
      }
    }
  }

  lemma DigitsJoin(a: string, b: string)
    requires AllDigits(a) && AllDigits(b)
    ensures AllDigits(a + b)
    ensures '.' !in a && '.' !in b
    ensures a + b == Sign(false) + (a + b)
  {
    assert forall i :: 0 <= i < |a + b| ==> (a + b)[i] == if i < |a| then a[i] else b[i - |a|];
  }

  lemma DigitsNoSpace(s: string, negative: bool, a: string, b: string)
    requires AllDigits(a) && AllDigits(b) && s == Sign(negative) + a + "." + b
    ensures forall i :: 0 <= i < |s| ==> !IsSpace(s[i])
  {
    var k := |Sign(negative)|;
    forall i | 0 <= i < |s|
      ensures !IsSpace(s[i])
    {
      if k <= i < k + |a| {
        assert s[i] == a[i - k];
      } else if i > k + |a| {
        assert s[i] == b[i - k - |a| - 1];
      }
    }
  }

  /** "1.5" is fifteen units, not one and a half. */
  lemma DotIsNotDecimalPoint()
    ensures ToCents(Some("1.5")) == 1500
  {
    DotJoinsDigits(false, "1", "5");
    Fifteen();
  }

  lemma Fifteen()
    ensures Sign(false) + "1" + "." + "5" == "1.5"
    ensures DigitsValue("1" + "5") == 15
    ensures Signed(false, 1500) == 1500
  {
    assert "1" + "5" == "15";
    assert "15"[..1] == "1";
  }

  /** A thousands dot followed by a decimal comma: the dot is dropped and
      the comma read as the decimal point. */
  lemma ThousandsAndDecimals(a: string, b: string, fp: string)
    requires AllDigits(a) && AllDigits(b) && AllDigits(fp) && |a| > 0 && |fp| <= 2
    ensures ToCents(Some(a + "." + b + "," + fp)) == Cents(a + b, fp)
  {
    var s := a + "." + b + "," + fp;
    var t := b + "," + fp;
    DigitsJoin(a, b);
    GroupedNoSpace(s, a, b, fp);
    DotsIgnored(s);
    GroupedParts(a, b, fp);
    RemoveOneDot(a, t);
    DecimalAmount(false, a + b, fp);
  }

  lemma GroupedNoSpace(s: string, a: string, b: string, fp: string)
    requires AllDigits(a) && AllDigits(b) && AllDigits(fp) && s == a + "." + b + "," + fp
    ensures forall i :: 0 <= i < |s| ==> !IsSpace(s[i])
  {
    forall i | 0 <= i < |s|
      ensures !IsSpace(s[i])
    {
      if i < |a| {
        assert s[i] == a[i];
      } else if |a| < i < |a| + 1 + |b| {
        assert s[i] == b[i - |a| - 1];
      } else if i > |a| + 1 + |b| {
        assert s[i] == fp[i - |a| - |b| - 2];
      }
    }
  }

  lemma GroupedParts(a: string, b: string, fp: string)
    requires AllDigits(b) && AllDigits(fp)
    ensures '.' !in b + "," + fp
    ensures a + "." + b + "," + fp == a + "." + (b + "," + fp)
    ensures a + (b + "," + fp) == Sign(false) + (a + b) + "," + fp
  {
    var t := b + "," + fp;
    forall i | 0 <= i < |t|
      ensures t[i] != '.'
    {
      if i < |b| {
        assert t[i] == b[i];
      } else if i > |b| {
        assert t[i] == fp[i - |b| - 1];
      }
    }
  }

  /** "5.000,00" is five thousand units. */
  lemma ArgentineNotation()
    ensures ToCents(Some("5.000,00")) == 500000
  {
    ThousandsAndDecimals("5", "000", "00");
    FiveThousandDigits();
  }

  lemma FiveThousandDigits()
    ensures "5" + "." + "000" + "," + "00" == "5.000,00"
    ensures Cents("5" + "000", "00") == 500000
  {
    assert "5" + "000" == "5000";
    assert DigitsValue("5000") == 5000 by {
      assert "5000"[..3] == "500";
      assert "500"[..2] == "50";
      assert "50"[..1] == "5";
    }
    assert DigitsValue("00") == 0 by {
      assert "00"[..1] == "0";
    }
  }

  /** An amount written in Argentine notation without thousands separators:
      the reference inverse of `toCents`. */
  function FormatAmount(c: int): string {
    var m := if c < 0 then -c else c;
    Sign(c < 0) + NatToString(m / 100) + "," + TwoDigits(m % 100)
  }

  lemma CentsOfFormat(m: nat)
    ensures Cents(NatToString(m / 100), TwoDigits(m % 100)) == m
  {
    NatToStringValue(m / 100);
  }

  /** Every integer amount of cents survives being written out and read back. */
  lemma FormatAmountRoundTrip(c: int)
    ensures ToCents(Some(FormatAmount(c))) == c
  {
    var m := if c < 0 then -c else c;
    DecimalAmount(c < 0, NatToString(m / 100), TwoDigits(m % 100));
    CentsOfFormat(m);
  }
}

=== FILE: numerals.dfy ===
/** Decimal digit strings and the natural numbers they denote. */
module Numerals {

  predicate IsDigit(c: char) {
    '0' <= c <= '9'
  }

  predicate AllDigits(s: string) {
    forall i :: 0 <= i < |s| ==> IsDigit(s[i])
  }

  function DigitValue(c: char): nat
    requires IsDigit(c)
  {
    c as int - '0' as int
  }

  function DigitChar(d: nat): (c: char)
    requires d < 10
    ensures IsDigit(c) && DigitValue(c) == d
  {
    ('0' as int + d) as char
  }

  function Pow10(n: nat): (p: nat)
    ensures p >= 1
  {
    if n == 0 then 1 else 10 * Pow10(n - 1)
  }

  /** The value of a decimal digit string, most significant digit first;
      the empty string denotes 0, as leading zeros do. */
  function DigitsValue(s: string): nat
    requires AllDigits(s)
  {
    if |s| == 0 then 0 else DigitsValue(s[..|s| - 1]) * 10 + DigitValue(s[|s| - 1])
  }

  lemma AllDigitsAppend(a: string, b: string)
    requires AllDigits(a) && AllDigits(b)
    ensures AllDigits(a + b)
  {
    forall i | 0 <= i < |a + b|
      ensures IsDigit((a + b)[i])
    {
      if i >= |a| {
        assert (a + b)[i] == b[i - |a|];
      }
    }
  }

  lemma ShiftStep(x: int, p: int, y: int, d: int)
    ensures (x * p + y) * 10 + d == x * (10 * p) + (y * 10 + d)
  {
  }

  /** Reading a concatenation: the left part is shifted by the right part's length. */
  lemma {:induction false} DigitsValueAppend(a: string, b: string)
    requires AllDigits(a) && AllDigits(b)
    ensures AllDigits(a + b)
    ensures DigitsValue(a + b) == DigitsValue(a) * Pow10(|b|) + DigitsValue(b)
  {
    AllDigitsAppend(a, b);
    if |b| > 0 {
      var b' := b[..|b| - 1];
      var d := DigitValue(b[|b| - 1]);
      assert (a + b)[..|a + b| - 1] == a + b';
      assert (a + b)[|a + b| - 1] == b[|b| - 1];
      DigitsValueAppend(a, b');
      assert DigitsValue(a + b) == DigitsValue(a + b') * 10 + d;
      assert DigitsValue(b) == DigitsValue(b') * 10 + d;
      ShiftStep(DigitsValue(a), Pow10(|b'|), DigitsValue(b'), d);
    } else {
      assert a + b == a;
    }
  }

  /** The decimal numeral of `n` (what `String(n)` prints for a safe integer). */
  function NatToString(n: nat): (r: string)
    ensures |r| > 0 && AllDigits(r)
    ensures r[0] != '0' || n == 0
  {
    if n < 10 then [DigitChar(n)] else NatToString(n / 10) + [DigitChar(n % 10)]
  }

  /** Printing a number and reading it back gives the number. */
  lemma {:induction false} NatToStringValue(n: nat)
    ensures DigitsValue(NatToString(n)) == n
  {
    if n >= 10 {
      var r := NatToString(n);
      assert r[..|r| - 1] == NatToString(n / 10);
      NatToStringValue(n / 10);
    }
  }

  /** A number below 100 printed with two digits, zero-padded. */
  function TwoDigits(n: nat): (r: string)
    requires n < 100
    ensures |r| == 2 && AllDigits(r) && DigitsValue(r) == n
  {
    var r := [DigitChar(n / 10), DigitChar(n % 10)];
    assert r[..1] == [DigitChar(n / 10)];
    assert r[..1][..0] == [];
    assert DigitsValue(r[..1]) == n / 10;
    r
  }
}

=== FILE: receipt.dfy ===
/** The transfer receipt page (pages/receipt.js): picking the debit and
    credit legs out of the movements of one transaction, the amount format,
    and the texts shown for origin, destination and concept. */
module Receipt {
  import opened Wrappers
  import opened Numerals
  import opened Seqs
  import opened Records
  import opened Money

  /** `e.debit && e.debit > 0`. */
  predicate IsDebitLeg(e: Movement) {
    e.debit.Some? && e.debit.value > 0
  }

  /** `e.credit && e.credit > 0`. */
  predicate IsCreditLeg(e: Movement) {
    e.credit.Some? && e.credit.value > 0
  }

  datatype Legs = Legs(debitLeg: Option<Movement>, creditLeg: Option<Movement>)

  /** `debitEntry` and `creditEntry`: both stay null unless there are exactly
      two entries; otherwise a forward scan keeps the last entry of each kind. */
  function SelectLegs(entries: Option<seq<Movement>>): (l: Legs)
    ensures !(entries.Some? && |entries.value| == 2) ==> l == Legs(None, None)
    ensures entries.Some? && |entries.value| == 2 ==>
      var e := entries.value;
      && l.debitLeg == (if IsDebitLeg(e[1]) then Some(e[1]) else if IsDebitLeg(e[0]) then Some(e[0]) else None)
      && l.creditLeg == (if IsCreditLeg(e[1]) then Some(e[1]) else if IsCreditLeg(e[0]) then Some(e[0]) else None)
  {
    if entries.Some? && |entries.value| == 2 then
      var e := entries.value;
      ScanLastIsLast(e, IsDebitLeg, None);
      ScanLastIsLast(e, IsCreditLeg, None);
      Legs(ScanLast(e, IsDebitLeg, None), ScanLast(e, IsCreditLeg, None))
    else Legs(None, None)
  }

  /** A leg that only debits. */
  predicate DebitOnly(e: Movement) {
    IsDebitLeg(e) && !IsCreditLeg(e)
  }

  /** A leg that only credits. */
  predicate CreditOnly(e: Movement) {
    IsCreditLeg(e) && !IsDebitLeg(e)
  }

  /** A well-formed pair, one debit-only leg and one credit-only leg in either
      order, yields the two distinct legs. */
  lemma WellFormedPair(entries: seq<Movement>, d: nat, c: nat)
    requires |entries| == 2 && d < 2 && c < 2
    requires DebitOnly(entries[d]) && CreditOnly(entries[c])
    ensures d != c
    ensures SelectLegs(Some(entries)) == Legs(Some(entries[d]), Some(entries[c]))
    ensures SelectLegs(Some(entries)).debitLeg != SelectLegs(Some(entries)).creditLeg
  {
  }

  /** `formatMoney`: `ARS ` and the amount in units with two decimals, a dot
      as the decimal point, for integer cents. */
  function FormatMoney(cents: int): (r: string)
    ensures |r| >= 8 && r[..4] == "ARS "
    ensures r[|r| - 3] == '.' && AllDigits(r[|r| - 2..])
    ensures (r[4] == '-') <==> cents < 0
    ensures var m := if cents < 0 then -cents else cents;
            var k := if cents < 0 then 5 else 4;
            && k < |r| - 3 && AllDigits(r[k..|r| - 3])
            && DigitsValue(r[k..|r| - 3]) == m / 100
            && DigitsValue(r[|r| - 2..]) == m % 100
    ensures var k := if cents < 0 then 5 else 4;
            r[k] != '0' || k + 1 == |r| - 3
  {
    var m := if cents < 0 then -cents else cents;
    var k := if cents < 0 then 5 else 4;
    var units := NatToString(m / 100);
    var r := "ARS " + Sign(cents < 0) + units + "." + TwoDigits(m % 100);
    assert r[|r| - 2..] == TwoDigits(m % 100);
    assert r[k..|r| - 3] == units;
    NatToStringValue(m / 100);
    assert r[4] == if cents < 0 then '-' else units[0];
    r
  }

  /** Read back by `toCents`, a receipt amount is a hundred times too large:
      the dot of `toFixed` is taken for a thousands separator. */
  lemma ReceiptAmountReadBack(cents: int)
    ensures ToCents(Some(FormatMoney(cents)[4..])) == 100 * cents
  {
    var m := if cents < 0 then -cents else cents;
    var q := NatToString(m / 100);
    var t := TwoDigits(m % 100);
    FormatMoneyBody(cents);
    DotJoinsDigits(cents < 0, q, t);
    FormattedDigits(m);
    SignedHundred(cents, m);
  }

  lemma FormatMoneyBody(cents: int)
    ensures var m := if cents < 0 then -cents else cents;
            FormatMoney(cents)[4..] == Sign(cents < 0) + NatToString(m / 100) + "." + TwoDigits(m % 100)
  {
  }

  lemma SignedHundred(cents: int, m: nat)
    requires m == if cents < 0 then -cents else cents
    ensures Signed(cents < 0, m * 100) == 100 * cents
  {
  }

  lemma FormattedDigits(m: nat)
    ensures DigitsValue(NatToString(m / 100) + TwoDigits(m % 100)) == m
  {
    NatToStringValue(m / 100);
    DigitsValueAppend(NatToString(m / 100), TwoDigits(m % 100));
    assert Pow10(2) == 100;
  }

  /** The receipt formats and `FormatAmount` differ only in the decimal
      separator. */
  lemma ReceiptAndAmountFormats(cents: int)
    ensures var r := FormatMoney(cents)[4..];
            var a := FormatAmount(cents);
            |r| == |a| && r[|r| - 3] == '.' && a[|a| - 3] == ','
            && r[..|r| - 3] == a[..|a| - 3] && r[|r| - 2..] == a[|a| - 2..]
  {
  }

  /** `leg?.field`. */
  function Field(leg: Option<Movement>, f: Movement -> Option<string>): Option<string> {
    if leg.Some? then f(leg.value) else None
  }

  datatype View = View(
    originCompany: string, originAlias: string, originCbu: string,
    debited: string, originBalance: string,
    destCompany: string, destAlias: string, destCbu: string,
    credited: string, destBalance: string,
    concept: string)

  /** The texts of the receipt for the selected legs. */
  function ReceiptView(legs: Legs): (v: View)
    ensures v.originAlias ==
      if legs.debitLeg.Some? && Truthy(legs.debitLeg.value.alias) then legs.debitLeg.value.alias.value
      else if legs.debitLeg.Some? && Truthy(legs.debitLeg.value.peerAlias) then legs.debitLeg.value.peerAlias.value
      else "-"
    ensures v.originCbu ==
      if legs.debitLeg.Some? && Truthy(legs.debitLeg.value.cbu) then legs.debitLeg.value.cbu.value
      else if legs.debitLeg.Some? && Truthy(legs.debitLeg.value.peerCbu) then legs.debitLeg.value.peerCbu.value
      else "-"
    ensures v.concept ==
      if legs.debitLeg.Some? && Truthy(legs.debitLeg.value.concept) then legs.debitLeg.value.concept.value
      else if legs.debitLeg.Some? && Truthy(legs.debitLeg.value.detail) then legs.debitLeg.value.detail.value
      else ""
    ensures legs.debitLeg.Some? ==> v.debited == FormatMoney(legs.debitLeg.value.debit.GetOr(0))
    ensures legs.creditLeg.Some? ==> v.credited == FormatMoney(legs.creditLeg.value.credit.GetOr(0))
  {
    var d := legs.debitLeg;
    var c := legs.creditLeg;
    View(
      OrText(Field(d, (m: Movement) => m.companyName), "-"),
      OrText(Or(Field(d, (m: Movement) => m.alias), Field(d, (m: Movement) => m.peerAlias)), "-"),
      OrText(Or(Field(d, (m: Movement) => m.cbu), Field(d, (m: Movement) => m.peerCbu)), "-"),
      if d.Some? then FormatMoney(d.value.debit.GetOr(0)) else "-",
      if d.Some? then FormatMoney(d.value.balanceAfter) else "-",
      OrText(Field(c, (m: Movement) => m.peerCompany), "-"),
      OrText(Field(c, (m: Movement) => m.peerAlias), "-"),
      OrText(Field(c, (m: Movement) => m.peerCbu), "-"),
      if c.Some? then FormatMoney(c.value.credit.GetOr(0)) else "-",
      if c.Some? then FormatMoney(c.value.balanceAfter) else "-",
      OrText(Or(Field(d, (m: Movement) => m.concept), Field(d, (m: Movement) => m.detail)), ""))
  }

  /** Unless exactly two entries were loaded, every origin and destination
      text is `-` and the concept is empty. */
  lemma NoPairNoDetails(entries: Option<seq<Movement>>)
    requires !(entries.Some? && |entries.value| == 2)
    ensures ReceiptView(SelectLegs(entries)) == View("-", "-", "-", "-", "-", "-", "-", "-", "-", "-", "")
  {
  }
}

=== FILE: records.dfy ===
/** The rows the pages read from the `movements`, `accounts` and `users`
    tables, and the JavaScript value rules the pages apply to their fields.
    A column that may hold `null` is an `Option`. */
module Records {
  import opened Wrappers
  import opened Text

  /** One leg of a transaction as a row of `movements`. Amounts are integer
      cents; `debit` and `credit` may be null. */
  datatype Movement = Movement(
    date: Option<string>,
    concept: Option<string>,
    detail: Option<string>,
    debit: Option<int>,
    credit: Option<int>,
    balanceAfter: int,
    txId: Option<string>,
    peerCompany: Option<string>,
    companyName: Option<string>,
    alias: Option<string>,
    cbu: Option<string>,
    peerAlias: Option<string>,
    peerCbu: Option<string>)

  /** A row of `accounts`. */
  datatype Account = Account(
    uid: string,
    alias: Option<string>,
    cbu: Option<string>,
    companyName: Option<string>,
    balance: int,
    isEntity: Option<bool>)

  /** A row of `users`: the profile of a bank employee or a client company. */
  datatype Profile = Profile(
    id: string,
    email: Option<string>,
    companyName: Option<string>,
    kind: Option<string>,
    role: Option<string>,
    status: Option<string>)

  /** JavaScript truthiness of a possibly-null string. */
  predicate Truthy(s: Option<string>) {
    s.Some? && s.value != ""
  }

  /** `a || b` on possibly-null strings. */
  function Or(a: Option<string>, b: Option<string>): (r: Option<string>)
    ensures Truthy(a) ==> r == a
    ensures !Truthy(a) ==> r == b
  {
    if Truthy(a) then a else b
  }

  /** `a || fallback` with a string fallback. */
  function OrText(a: Option<string>, fallback: string): (r: string)
    ensures Truthy(a) ==> r == a.value
    ensures !Truthy(a) ==> r == fallback
  {
    if Truthy(a) then a.value else fallback
  }

  /** `x || 0` on a possibly-null amount (0 itself is falsy and gives 0). */
  function Amount(x: Option<int>): (r: int)
    ensures x.None? ==> r == 0
    ensures x.Some? ==> r == x.value
  {
    if x.Some? then x.value else 0
  }

  /** A possibly-null value interpolated into a template literal. */
  function Interp(s: Option<string>): (r: string)
    ensures s.Some? ==> r == s.value
    ensures s.None? ==> r == "null"
  {
    if s.Some? then s.value else "null"
  }

  /** `(f || '').toLowerCase().includes(q)`: a missing field reads as empty. */
  predicate Mentions(f: Option<string>, q: string) {
    Contains(Lower(f.GetOr("")), q)
  }

  /** A missing field contains no non-empty query. */
  lemma MissingMentionsNothing(q: string)
    requires q != ""
    ensures !Mentions(None, q)
  {
    assert Lower("") == "";
    ContainsInEmpty(q);
  }

  /** The outcome of the access check a page runs on entering. */
  datatype Access =
    | NoSession            // no signed-in user: sent to `/`
    | Refused(message: string)  // alerted and sent to `/`
    | Stalled(message: string)  // alerted, left on the page with nothing loaded
    | Admitted

  /** Where the access check sends the browser. */
  function AccessRedirect(a: Access): (r: Option<string>)
    ensures r.Some? <==> a.NoSession? || a.Refused?
    ensures r.Some? ==> r.value == "/"
  {
    if a.NoSession? || a.Refused? then Some("/") else None
  }

  /** The check of the bank pages that load the caller's `users` row:
      only a row with role `bank` is admitted, anything else is refused. */
  function StaffAccess(signedIn: bool, myRow: Option<Profile>, refusal: string): (a: Access)
    ensures a == Admitted <==> signedIn && myRow.Some? && myRow.value.role == Some("bank")
    ensures !signedIn ==> a == NoSession
    ensures signedIn && a != Admitted ==> a == Refused(refusal)
  {
    if !signedIn then NoSession
    else if myRow.None? || myRow.value.role != Some("bank") then Refused(refusal)
    else Admitted
  }
}

=== FILE: register.dfy ===
/** The registration page (pages/register.js): where an already signed-in
    user is sent, and what a registration does. Sign-up and the profile insert
    run in the authentication service and the database; their results are
    parameters. */
module Register {
  import opened Wrappers
  import opened Records
  import opened Login
  import opened Layout

  /** Where a signed-in visitor of the page is sent. Only `bank` is looked at
      as a role; the `/home` branch checks the status alone. */
  function RegisterRedirect(user: Option<Profile>): (r: Option<string>)
    ensures user.None? ==> r.None?
    ensures r == Some("/admin") <==> Employee(user)
    ensures r == Some("/home") <==>
      user.Some? && user.value.role != Some("bank") && user.value.status == Some("approved")
    ensures r.Some? ==> r.value == "/admin" || r.value == "/home"
  {
    if user.None? then None
    else if user.value.role == Some("bank") then Some("/admin")
    else if user.value.status == Some("approved") then Some("/home")
    else None
  }

  /** For the two roles the application knows, the registration page sends a
      user where the login page does. */
  lemma RedirectsAgreeForKnownRoles(user: Profile)
    requires user.role == Some("bank") || user.role == Some("client")
    ensures RegisterRedirect(Some(user)).Some? <==> LoginEffect(Some(user)).Redirect?
    ensures RegisterRedirect(Some(user)).Some? ==>
            LoginEffect(Some(user)) == Redirect(RegisterRedirect(Some(user)).value)
  {
  }

  /** Without a role, an approved status is enough for the registration page
      to send the user to `/home`, where the login page and the navigation
      bar do not. */
  lemma ApprovedWithoutRole(user: Profile)
    requires user.role.None? && user.status == Some("approved")
    ensures RegisterRedirect(Some(user)) == Some("/home")
    ensures LoginEffect(Some(user)) == Stay
    ensures !NavLinks(Some(user)).inicio
  {
  }

  const Registered: string := "Registro exitoso. Tu cuenta está pendiente de aprobación."

  /** The page after `handleRegister`: the messages, the profile sent to the
      `users` table if any, and whether the new session was closed. */
  datatype Registration = Registration(error: string, message: string, profileSent: Option<Profile>, signedOut: bool)

  /** The profile row written for a new sign-up. */
  function NewProfile(id: string, email: string, companyName: string, kind: string): Profile {
    Profile(id, Some(email), Some(companyName), Some(kind), Some("client"), Some("pending"))
  }

  /** `handleRegister`. `signUp` is the new user's id or the sign-up error;
      `insertError` is the error of the profile insert, if any. */
  function HandleRegister(email: string, companyName: string, kind: string,
                          signUp: Result<string, string>, insertError: Option<string>): (g: Registration)
    ensures signUp.Err? ==> g == Registration(signUp.error, "", None, false)
    ensures g.profileSent.Some? <==> signUp.Ok?
    ensures g.profileSent.Some? ==>
      && g.profileSent.value.id == signUp.value
      && g.profileSent.value.email == Some(email)
      && g.profileSent.value.companyName == Some(companyName)
      && g.profileSent.value.kind == Some(kind)
      && g.profileSent.value.role == Some("client")
      && g.profileSent.value.status == Some("pending")
    ensures g.signedOut <==> signUp.Ok? && insertError.None?
    ensures g.signedOut ==> g.error == "" && g.message == Registered
    ensures signUp.Ok? && insertError.Some? ==> g.error == insertError.value && g.message == ""
  {
    match signUp
    case Err(e) => Registration(e, "", None, false)
    case Ok(id) =>
      var row := NewProfile(id, email, companyName, kind);
      match insertError
      case Some(e) => Registration(e, "", Some(row), false)
      case None => Registration("", Registered, Some(row), true)
  }

  /** A freshly registered client is held at the login page with the pending
      notice, is not redirected by this page, and gets no `Inicio` link. */
  lemma NewClientIsPending(email: string, companyName: string, kind: string, id: string, insertError: Option<string>)
    ensures var row := HandleRegister(email, companyName, kind, Ok(id), insertError).profileSent.value;
            && LoginEffect(Some(row)) == Notice(PendingNotice)
            && RegisterRedirect(Some(row)).None?
            && !NavLinks(Some(row)).inicio
  {
  }
}

=== FILE: seqs.dfy ===
/** Order-preserving selections over sequences: `Array.prototype.filter`,
    keep-first de-duplication by key, and the forward scan of `forEach`. */
module Seqs {
  import opened Wrappers

  /** `a` is obtained from `b` by deleting elements, keeping the order. */
  predicate IsSubsequence<T(==)>(a: seq<T>, b: seq<T>)
    decreases |b|
  {
    if |a| == 0 then true
    else if |b| == 0 then false
    else if a[0] == b[0] then IsSubsequence(a[1..], b[1..])
    else IsSubsequence(a, b[1..])
  }

  /** Every sequence is a subsequence of itself. */
  lemma {:induction false} SubsequenceRefl<T>(xs: seq<T>)
    ensures IsSubsequence(xs, xs)
  {
    if |xs| > 0 {
      SubsequenceRefl(xs[1..]);
    }
  }

  /** `xs.filter(p)`. */
  function Filter<T(==)>(xs: seq<T>, p: T -> bool): (r: seq<T>)
    ensures IsSubsequence(r, xs)
    ensures forall i :: 0 <= i < |r| ==> p(r[i])
  {
    if |xs| == 0 then []
    else if p(xs[0]) then [xs[0]] + Filter(xs[1..], p) else Filter(xs[1..], p)
  }

  /** A filter keeps every copy of each element satisfying `p` and nothing
      else. */
  lemma {:induction false} FilterCount<T(!new)>(xs: seq<T>, p: T -> bool)
    ensures forall x :: multiset(Filter(xs, p))[x] == if p(x) then multiset(xs)[x] else 0
  {
    if |xs| > 0 {
      FilterCount(xs[1..], p);
      assert xs == [xs[0]] + xs[1..];
    }
  }

  /** An element survives the filter iff it was there and satisfies `p`. */
  lemma FilterMembers<T(!new)>(xs: seq<T>, p: T -> bool)
    ensures forall x :: x in Filter(xs, p) <==> x in xs && p(x)
  {
    FilterCount(xs, p);
    assert forall x :: x in Filter(xs, p) <==> multiset(Filter(xs, p))[x] > 0;
    assert forall x :: x in xs <==> multiset(xs)[x] > 0;
  }

  /** A filter whose predicate holds everywhere keeps everything. */
  lemma {:induction false} FilterAll<T(!new)>(xs: seq<T>, p: T -> bool)
    requires forall i :: 0 <= i < |xs| ==> p(xs[i])
    ensures Filter(xs, p) == xs
  {
    if |xs| > 0 {
      FilterAll(xs[1..], p);
      assert xs == [xs[0]] + xs[1..];
    }
  }

  /** Filtering distributes over concatenation. */
  lemma {:induction false} FilterAppend<T(!new)>(a: seq<T>, b: seq<T>, p: T -> bool)
    ensures Filter(a + b, p) == Filter(a, p) + Filter(b, p)
  {
    if |a| > 0 {
      var ab := a + b;
      assert ab[0] == a[0];
      assert ab[1..] == a[1..] + b;
      FilterAppend(a[1..], b, p);
      var rest := Filter(a[1..], p) + Filter(b, p);
      if p(a[0]) {
        assert Filter(ab, p) == [a[0]] + rest;
        assert Filter(a, p) == [a[0]] + Filter(a[1..], p);
      } else {
        assert Filter(ab, p) == rest;
      }
    } else {
      assert a + b == b;
    }
  }

  /** The set of keys of the elements of `xs`. */
  function KeySet<T, K>(xs: seq<T>, key: T -> K): set<K> {
    if |xs| == 0 then {} else {key(xs[0])} + KeySet(xs[1..], key)
  }

  lemma {:induction false} KeySetMember<T, K>(xs: seq<T>, key: T -> K, i: nat)
    requires i < |xs|
    ensures key(xs[i]) in KeySet(xs, key)
  {
    if i > 0 {
      KeySetMember(xs[1..], key, i - 1);
    }
  }

  /** The first element of `xs` whose key is `k`. */
  function FirstWithKey<T, K(==)>(xs: seq<T>, key: T -> K, k: K): Option<T> {
    if |xs| == 0 then None
    else if key(xs[0]) == k then Some(xs[0])
    else FirstWithKey(xs[1..], key, k)
  }

  /** The elements of `xs` whose key has not been seen, each kept at its first
      occurrence; `seen` grows as the scan goes. This is the
      `xs.filter(x => seen.has(key(x)) ? false : seen.add(key(x)))` idiom. */
  function DedupFrom<T(==), K(==)>(xs: seq<T>, key: T -> K, seen: set<K>): (r: seq<T>)
    ensures IsSubsequence(r, xs)
    ensures forall i :: 0 <= i < |r| ==> key(r[i]) !in seen
    ensures forall i, j :: 0 <= i < j < |r| ==> key(r[i]) != key(r[j])
    ensures KeySet(r, key) == KeySet(xs, key) - seen
  {
    if |xs| == 0 then []
    else if key(xs[0]) in seen then
      var r := DedupFrom(xs[1..], key, seen);
      assert |r| > 0 ==> r[0] != xs[0];
      r
    else
      var tail := DedupFrom(xs[1..], key, seen + {key(xs[0])});
      var r := [xs[0]] + tail;
      assert r[1..] == tail;
      assert forall i :: 0 < i < |r| ==> r[i] == tail[i - 1];
      r
  }

  /** Every element kept is the first of `xs` with its key. */
  lemma {:induction false} DedupFromFirst<T, K>(xs: seq<T>, key: T -> K, seen: set<K>)
    ensures forall i :: 0 <= i < |DedupFrom(xs, key, seen)| ==>
              FirstWithKey(xs, key, key(DedupFrom(xs, key, seen)[i])) == Some(DedupFrom(xs, key, seen)[i])
  {
    if |xs| > 0 {
      var r := DedupFrom(xs, key, seen);
      if key(xs[0]) in seen {
        DedupFromFirst(xs[1..], key, seen);
        forall i | 0 <= i < |r|
          ensures FirstWithKey(xs, key, key(r[i])) == Some(r[i])
        {
          assert key(r[i]) !in seen;
        }
      } else {
        var seen' := seen + {key(xs[0])};
        var tail := DedupFrom(xs[1..], key, seen');
        DedupFromFirst(xs[1..], key, seen');
        assert r == [xs[0]] + tail;
        forall i | 0 <= i < |r|
          ensures FirstWithKey(xs, key, key(r[i])) == Some(r[i])
        {
          if i > 0 {
            assert r[i] == tail[i - 1];
            assert key(tail[i - 1]) !in seen';
          }
        }
      }
    }
  }

  /** Earlier elements shadow later ones: a key present in `a` is found in
      `a` even when `b` follows. */
  lemma {:induction false} FirstWithKeyAppend<T, K>(a: seq<T>, b: seq<T>, key: T -> K, k: K)
    requires k in KeySet(a, key)
    ensures FirstWithKey(a + b, key, k) == FirstWithKey(a, key, k)
    ensures FirstWithKey(a, key, k).Some? && key(FirstWithKey(a, key, k).value) == k
  {
    assert (a + b)[0] == a[0];
    if key(a[0]) != k {
      assert (a + b)[1..] == a[1..] + b;
      FirstWithKeyAppend(a[1..], b, key, k);
    }
  }

  /** One step of the de-duplicating scan at position `i`. */
  lemma DedupFromStep<T, K>(xs: seq<T>, key: T -> K, seen: set<K>, i: nat)
    requires i < |xs|
    ensures DedupFrom(xs[i..], key, seen) ==
            if key(xs[i]) in seen then DedupFrom(xs[i + 1..], key, seen)
            else [xs[i]] + DedupFrom(xs[i + 1..], key, seen + {key(xs[i])})
  {
    assert xs[i..][0] == xs[i];
    assert xs[i..][1..] == xs[i + 1..];
  }

  /** One step of a keep-first loop that has emitted `r` so far. */
  lemma DedupLoopStep<T, K>(r: seq<T>, xs: seq<T>, key: T -> K, seen: set<K>, i: nat)
    requires i < |xs|
    ensures key(xs[i]) in seen ==>
            r + DedupFrom(xs[i + 1..], key, seen) == r + DedupFrom(xs[i..], key, seen)
    ensures key(xs[i]) !in seen ==>
            (r + [xs[i]]) + DedupFrom(xs[i + 1..], key, seen + {key(xs[i])}) == r + DedupFrom(xs[i..], key, seen)
  {
    DedupFromStep(xs, key, seen, i);
    if key(xs[i]) !in seen {
      var rest := DedupFrom(xs[i + 1..], key, seen + {key(xs[i])});
      assert (r + [xs[i]]) + rest == r + ([xs[i]] + rest);
    }
  }

  /** The keys of a concatenation are the keys of its parts. */
  lemma {:induction false} KeySetAppend<T, K>(a: seq<T>, b: seq<T>, key: T -> K)
    ensures KeySet(a + b, key) == KeySet(a, key) + KeySet(b, key)
  {
    if |a| == 0 {
      assert a + b == b;
    } else {
      assert (a + b)[0] == a[0];
      assert (a + b)[1..] == a[1..] + b;
      KeySetAppend(a[1..], b, key);
    }
  }

  /** Keep-first de-duplication starting from an empty `seen` set. */
  function Dedup<T(==), K(==)>(xs: seq<T>, key: T -> K): seq<T> {
    DedupFrom(xs, key, {})
  }

  /** A sequence whose keys are distinct and unseen passes through unchanged. */
  lemma {:induction false} DedupFromDistinct<T, K>(xs: seq<T>, key: T -> K, seen: set<K>)
    requires forall i :: 0 <= i < |xs| ==> key(xs[i]) !in seen
    requires forall i, j :: 0 <= i < j < |xs| ==> key(xs[i]) != key(xs[j])
    ensures DedupFrom(xs, key, seen) == xs
  {
    if |xs| > 0 {
      DedupFromDistinct(xs[1..], key, seen + {key(xs[0])});
      assert xs == [xs[0]] + xs[1..];
    }
  }

  /** De-duplicating twice is the same as once. */
  lemma DedupIdempotent<T, K>(xs: seq<T>, key: T -> K)
    ensures Dedup(Dedup(xs, key), key) == Dedup(xs, key)
  {
    DedupFromDistinct(Dedup(xs, key), key, {});
  }

  /** The forward scan of `xs.forEach(e => { if (p(e)) found = e; })`. */
  function ScanLast<T>(xs: seq<T>, p: T -> bool, found: Option<T>): Option<T> {
    if |xs| == 0 then found
    else ScanLast(xs[1..], p, if p(xs[0]) then Some(xs[0]) else found)
  }

  lemma {:induction false} ScanLastNone<T>(xs: seq<T>, p: T -> bool, found: Option<T>)
    requires forall i :: 0 <= i < |xs| ==> !p(xs[i])
    ensures ScanLast(xs, p, found) == found
  {
    if |xs| > 0 {
      assert !p(xs[0]);
      assert forall j :: 0 <= j < |xs| - 1 ==> xs[1..][j] == xs[j + 1];
      ScanLastNone(xs[1..], p, found);
    }
  }

  lemma {:induction false} ScanLastAt<T>(xs: seq<T>, p: T -> bool, found: Option<T>, i: nat)
    requires i < |xs| && p(xs[i])
    requires forall j :: i < j < |xs| ==> !p(xs[j])
    ensures ScanLast(xs, p, found) == Some(xs[i])
  {
    var next := if p(xs[0]) then Some(xs[0]) else found;
    if i == 0 {
      assert forall j :: 0 <= j < |xs| - 1 ==> xs[1..][j] == xs[j + 1];
      ScanLastNone(xs[1..], p, next);
    } else {
      assert xs[1..][i - 1] == xs[i];
      assert forall j :: i - 1 < j < |xs| - 1 ==> xs[1..][j] == xs[j + 1];
      ScanLastAt(xs[1..], p, next, i - 1);
    }
  }

  /** The scan ends with the last element satisfying `p`, or with its start
      value when there is none. */
  lemma ScanLastIsLast<T>(xs: seq<T>, p: T -> bool, found: Option<T>)
    ensures (forall i :: 0 <= i < |xs| ==> !p(xs[i])) ==> ScanLast(xs, p, found) == found
    ensures forall i :: 0 <= i < |xs| && p(xs[i]) && (forall j :: i < j < |xs| ==> !p(xs[j]))
                        ==> ScanLast(xs, p, found) == Some(xs[i])
  {
    if forall i :: 0 <= i < |xs| ==> !p(xs[i]) {
      ScanLastNone(xs, p, found);
    }
    forall i | 0 <= i < |xs| && p(xs[i]) && (forall j :: i < j < |xs| ==> !p(xs[j]))
      ensures ScanLast(xs, p, found) == Some(xs[i])
    {
      ScanLastAt(xs, p, found, i);
    }
  }
}

=== FILE: statement.dfy ===
/** The account statement page (pages/extract.js): the summary of opening
    balance, debit and credit totals and closing balance over the listed
    movements, and the rows of its CSV export. */
module Statement {
  import opened Wrappers
  import opened Records
  import opened Csv
  import opened Text

  /** `rows.reduce((a, r) => a + (r.debit || 0), 0)`, folded from the left. */
  function TotalDebits(rows: seq<Movement>): int {
    if |rows| == 0 then 0 else TotalDebits(rows[..|rows| - 1]) + Amount(rows[|rows| - 1].debit)
  }

  /** `rows.reduce((a, r) => a + (r.credit || 0), 0)`. */
  function TotalCredits(rows: seq<Movement>): int {
    if |rows| == 0 then 0 else TotalCredits(rows[..|rows| - 1]) + Amount(rows[|rows| - 1].credit)
  }

  /** The balance before a movement, undone from the balance after it. */
  function BalanceBefore(r: Movement): int {
    r.balanceAfter - Amount(r.credit) + Amount(r.debit)
  }

  datatype Summary = Summary(initial: int, deb: int, cred: int, final: int)

  /** The `summary` memo. */
  function Summarize(rows: seq<Movement>): (s: Summary)
    ensures |rows| == 0 ==> s == Summary(0, 0, 0, 0)
    ensures |rows| > 0 ==> s.initial == BalanceBefore(rows[0])
    ensures |rows| > 0 ==> s.final == rows[|rows| - 1].balanceAfter
    ensures s.deb == TotalDebits(rows) && s.cred == TotalCredits(rows)
  {
    var initial := if |rows| > 0 then BalanceBefore(rows[0]) else 0;
    var deb := TotalDebits(rows);
    var cred := TotalCredits(rows);
    var final := if |rows| > 0 then rows[|rows| - 1].balanceAfter else initial + cred - deb;
    Summary(initial, deb, cred, final)
  }

  /** Every row's balance continues from the previous row's balance. */
  predicate Chained(rows: seq<Movement>) {
    forall i :: 0 < i < |rows| ==> BalanceBefore(rows[i]) == rows[i - 1].balanceAfter
  }

  /** The totals of a concatenation are the sums of the parts' totals. */
  lemma {:induction false} TotalsAppend(a: seq<Movement>, b: seq<Movement>)
    ensures TotalDebits(a + b) == TotalDebits(a) + TotalDebits(b)
    ensures TotalCredits(a + b) == TotalCredits(a) + TotalCredits(b)
    decreases |b|
  {
    if |b| == 0 {
      assert a + b == a;
    } else {
      var b' := b[..|b| - 1];
      assert (a + b)[..|a + b| - 1] == a + b';
      assert (a + b)[|a + b| - 1] == b[|b| - 1];
      TotalsAppend(a, b');
    }
  }

  /** On a chained statement the closing balance is the opening balance plus
      credits minus debits, the same formula the empty statement uses. */
  lemma {:induction false} ClosingBalance(rows: seq<Movement>)
    requires Chained(rows)
    ensures Summarize(rows).final ==
            Summarize(rows).initial + Summarize(rows).cred - Summarize(rows).deb
  {
    if |rows| == 1 {
      assert rows[..0] == [];
      assert TotalDebits(rows) == Amount(rows[0].debit);
      assert TotalCredits(rows) == Amount(rows[0].credit);
    } else if |rows| > 1 {
      var prefix := rows[..|rows| - 1];
      assert forall i :: 0 <= i < |prefix| ==> prefix[i] == rows[i];
      assert Chained(prefix);
      ClosingBalance(prefix);
      assert BalanceBefore(rows[|rows| - 1]) == prefix[|prefix| - 1].balanceAfter;
    }
  }

  /** Two consecutive chained statements: the later one opens at the earlier
      one's close, and the statement over both spans the two. */
  lemma StatementsCompose(a: seq<Movement>, b: seq<Movement>)
    requires |a| > 0 && |b| > 0
    requires Chained(a + b)
    ensures Summarize(b).initial == Summarize(a).final
    ensures Summarize(a + b).initial == Summarize(a).initial
    ensures Summarize(a + b).final == Summarize(b).final
    ensures Summarize(a + b).deb == Summarize(a).deb + Summarize(b).deb
    ensures Summarize(a + b).cred == Summarize(a).cred + Summarize(b).cred
  {
    assert (a + b)[|a|] == b[0];
    assert (a + b)[|a| - 1] == a[|a| - 1];
    assert (a + b)[0] == a[0];
    assert (a + b)[|a + b| - 1] == b[|b| - 1];
    TotalsAppend(a, b);
  }

  /** The `detalle` text: the concept, followed by the peer company in
      parentheses when there is one. */
  function Detail(r: Movement): (d: string)
    ensures !Truthy(r.peerCompany) ==> d == Interp(r.concept)
    ensures Truthy(r.peerCompany) ==>
      d == Interp(r.concept) + " (" + r.peerCompany.value + ")"
  {
    Interp(r.concept) + (if Truthy(r.peerCompany) then " (" + r.peerCompany.value + ")" else "")
  }

  /** The export's column names, in object-literal order. */
  const ExportHeaders: seq<string> := ["fecha", "detalle", "debito", "credito", "saldo", "comprobante"]

  /** One export object. `dateText` stands for `new Date(d).toLocaleString()`
      and `major` for the text of `cents / 100`. */
  function ExportRecord(r: Movement, dateText: Option<string> -> string, major: int -> string): Record {
    [("fecha", Some(dateText(r.date))),
     ("detalle", Some(Detail(r))),
     ("debito", Some(major(Amount(r.debit)))),
     ("credito", Some(major(Amount(r.credit)))),
     ("saldo", Some(major(r.balanceAfter))),
     ("comprobante", r.txId)]
  }

  /** The values of one export object, in column order. */
  function ExportValues(r: Movement, dateText: Option<string> -> string, major: int -> string): seq<Value> {
    [Some(dateText(r.date)), Some(Detail(r)), Some(major(Amount(r.debit))),
     Some(major(Amount(r.credit))), Some(major(r.balanceAfter)), r.txId]
  }

  /** `rows.map(...)`: one export object per row, in row order. */
  function ExportRecords(rows: seq<Movement>, dateText: Option<string> -> string, major: int -> string): (recs: seq<Record>)
    ensures |recs| == |rows|
    ensures forall i :: 0 <= i < |rows| ==> recs[i] == ExportRecord(rows[i], dateText, major)
  {
    seq(|rows|, i requires 0 <= i < |rows| => ExportRecord(rows[i], dateText, major))
  }

  /** Each export object has exactly the six columns and yields its values
      in that order. */
  lemma ExportRecordFields(r: Movement, dateText: Option<string> -> string, major: int -> string)
    ensures Keys(ExportRecord(r, dateText, major)) == ExportHeaders
    ensures Fields(ExportRecord(r, dateText, major), ExportHeaders) == ExportValues(r, dateText, major)
  {
    var rec := ExportRecord(r, dateText, major);
    ExportKeys(rec);
    var vs := Fields(rec, ExportHeaders);
    var ws := ExportValues(r, dateText, major);
    forall j | 0 <= j < 6
      ensures vs[j] == ws[j]
    {
      assert vs[j] == Lookup(rec, ExportHeaders[j]);
      FirstKey(rec, j);
    }
  }

  /** The six column names are pairwise different. */
  lemma HeadersDistinct()
    ensures forall i, j :: 0 <= i < j < |ExportHeaders| ==> ExportHeaders[i] != ExportHeaders[j]
  {
  }

  lemma ExportKeys(rec: Record)
    requires |rec| == 6
    requires forall j :: 0 <= j < 6 ==> rec[j].0 == ExportHeaders[j]
    ensures Keys(rec) == ExportHeaders
  {
  }

  lemma FirstKey(rec: Record, j: nat)
    requires j < |rec| == 6
    requires forall k :: 0 <= k < 6 ==> rec[k].0 == ExportHeaders[k]
    ensures Lookup(rec, ExportHeaders[j]) == rec[j].1
  {
    HeadersDistinct();
    LookupFirst(rec, ExportHeaders[j], j);
  }

  /** The statement download: `extracto.csv` with the export of every row;
      nothing at all for an empty statement. */
  function ExtractExport(rows: seq<Movement>, dateText: Option<string> -> string, major: int -> string): (f: Option<(string, string)>)
    ensures f.None? <==> |rows| == 0
    ensures f.Some? ==> f.value.0 == "extracto.csv"
  {
    match ExportToCsv(ExportRecords(rows, dateText, major))
    case None => None
    case Some(doc) => Some(("extracto.csv", doc))
  }

  /** The export's line list decodes back: its first line is the six column
      names and line `i + 1` holds row `i`'s date, detail, amounts and
      transaction id. */
  lemma ExportDecodes(rows: seq<Movement>, dateText: Option<string> -> string, major: int -> string, i: nat)
    requires i < |rows|
    ensures Lines(ExportRecords(rows, dateText, major))[0] == Join(ExportHeaders, ",")
    ensures ParseFields(Lines(ExportRecords(rows, dateText, major))[i + 1]) ==
            Some(ExportValues(rows[i], dateText, major))
  {
    var recs := ExportRecords(rows, dateText, major);
    ExportRecordFields(rows[0], dateText, major);
    ExportRecordFields(rows[i], dateText, major);
    DataLinesDecode(recs, i);
  }

  /** The downloaded `extracto.csv` itself decodes back: split at its line
      feeds it has one line per row after the header line, the header line
      is the six column names and line `i + 1` holds row `i`'s values. This
      needs every value free of line feeds; a line feed inside a quoted
      field would split its row in two. */
  lemma ExportFileDecodes(rows: seq<Movement>, dateText: Option<string> -> string, major: int -> string, i: nat)
    requires i < |rows|
    requires forall j, k :: 0 <= j < |rows| && 0 <= k < |ExportHeaders| ==>
               ValueFree(ExportValues(rows[j], dateText, major)[k], '\n')
    ensures var lines := Split(ExtractExport(rows, dateText, major).value.1, '\n');
            |lines| == |rows| + 1 &&
            lines[0] == Join(ExportHeaders, ",") &&
            ParseFields(lines[i + 1]) == Some(ExportValues(rows[i], dateText, major))
  {
    var recs := ExportRecords(rows, dateText, major);
    forall j | 0 <= j < |recs|
      ensures ValuesFree(recs[j], '\n')
    {
      assert forall k :: 0 <= k < 6 ==> recs[j][k].1 == ExportValues(rows[j], dateText, major)[k];
    }
    assert forall k :: 0 <= k < |recs[0]| ==> recs[0][k].0 == ExportHeaders[k];
    DocumentLines(recs);
    ExportDecodes(rows, dateText, major, i);
  }
}

=== FILE: text.dfy ===
/** String helpers with the semantics of the JavaScript built-ins the pages use:
    `trim`, ASCII `toLowerCase`, `includes`, `join` and `split`. */
module Text {

  /** The characters `String.prototype.trim` removes: the WhiteSpace and
      LineTerminator code points of ECMAScript. */
  predicate IsSpace(c: char) {
    var n := c as int;
    n == 0x09 || n == 0x0A || n == 0x0B || n == 0x0C || n == 0x0D || n == 0x20
    || n == 0xA0 || n == 0x1680 || (0x2000 <= n <= 0x200A) || n == 0x2028
    || n == 0x2029 || n == 0x202F || n == 0x205F || n == 0x3000 || n == 0xFEFF
  }

  /** A string that `trim` turns into the empty string. */
  predicate IsBlank(s: string) {
    forall i :: 0 <= i < |s| ==> IsSpace(s[i])
  }

  /** Leading white space removed: the result is the longest suffix that does
      not start with white space. */
  function TrimStart(s: string): (r: string)
    ensures |r| <= |s| && r == s[|s| - |r|..]
    ensures forall i :: 0 <= i < |s| - |r| ==> IsSpace(s[i])
    ensures r == [] || !IsSpace(r[0])
  {
    if |s| > 0 && IsSpace(s[0]) then TrimStart(s[1..]) else s
  }

  /** Trailing white space removed: the longest prefix that does not end with
      white space. */
  function TrimEnd(s: string): (r: string)
    ensures |r| <= |s| && r == s[..|r|]
    ensures forall i :: |r| <= i < |s| ==> IsSpace(s[i])
    ensures r == [] || !IsSpace(r[|r| - 1])
  {
    if |s| > 0 && IsSpace(s[|s| - 1]) then TrimEnd(s[..|s| - 1]) else s
  }

  /** `s.trim()`. */
  function Trim(s: string): (r: string)
    ensures r == [] <==> IsBlank(s)
    ensures Unpadded(r)
  {
    var r := TrimEnd(TrimStart(s));
    TrimEnds(s, r);
    TrimIsSlice(s, r);
    r
  }

  /** `trim` removes a blank prefix and a blank suffix and nothing else:
      together with `Unpadded`, this pins the result down. */
  lemma TrimRemovesPadding(s: string)
    ensures exists p, q :: s == p + Trim(s) + q && IsBlank(p) && IsBlank(q)
  {
    TrimIsSlice(s, Trim(s));
  }

  /** Neither end of `r` is white space. */
  predicate Unpadded(r: string) {
    r == [] || (!IsSpace(r[0]) && !IsSpace(r[|r| - 1]))
  }

  /** What the two strips leave starts and ends with a non-space. */
  lemma TrimEnds(s: string, r: string)
    requires r == TrimEnd(TrimStart(s))
    ensures Unpadded(r)
  {
    assert r == [] || r[0] == TrimStart(s)[0];
  }

  /** What the two strips leave is empty exactly for blank text, and is
      what remains of `s` after a blank prefix and a blank suffix. */
  lemma TrimIsSlice(s: string, r: string)
    requires r == TrimEnd(TrimStart(s))
    ensures r == [] <==> IsBlank(s)
    ensures exists p, q :: s == p + r + q && IsBlank(p) && IsBlank(q)
  {
    TrimEnds(s, r);
    var i, j := TrimSlice(s);
    SliceBlank(s, r, i, j);
    SliceWitness(s, r, i, j);
  }

  /** A slice between white space is empty exactly when all of `s` is white
      space, provided it does not itself start with white space. */
  lemma SliceBlank(s: string, r: string, i: nat, j: nat)
    requires i <= j <= |s| && r == s[i..j]
    requires forall k :: 0 <= k < i ==> IsSpace(s[k])
    requires forall k :: j <= k < |s| ==> IsSpace(s[k])
    requires r == [] || !IsSpace(r[0])
    ensures r == [] <==> IsBlank(s)
  {
    if r == [] {
      forall k | 0 <= k < |s|
        ensures IsSpace(s[k])
      {
        assert k < i || j <= k;
      }
    } else {
      assert r[0] == s[i];
    }
  }

  /** The slice `s[i..j]` with white space on both sides, as prefix and
      suffix. */
  lemma SliceWitness(s: string, r: string, i: nat, j: nat)
    requires i <= j <= |s| && r == s[i..j]
    requires forall k :: 0 <= k < i ==> IsSpace(s[k])
    requires forall k :: j <= k < |s| ==> IsSpace(s[k])
    ensures exists p, q :: s == p + r + q && IsBlank(p) && IsBlank(q)
  {
    var p, q := s[..i], s[j..];
    assert IsBlank(p) by {
      forall k | 0 <= k < |p|
        ensures IsSpace(p[k])
      {
        assert p[k] == s[k];
      }
    }
    assert IsBlank(q) by {
      forall k | 0 <= k < |q|
        ensures IsSpace(q[k])
      {
        assert q[k] == s[j + k];
      }
    }
    assert s == p + r + q;
  }

  /** The trim of `s` is the slice `s[i..j]` between its leading and trailing
      white space. */
  lemma TrimSlice(s: string) returns (i: nat, j: nat)
    ensures i <= j <= |s| && TrimEnd(TrimStart(s)) == s[i..j]
    ensures forall k :: 0 <= k < i ==> IsSpace(s[k])
    ensures forall k :: j <= k < |s| ==> IsSpace(s[k])
  {
    var t := TrimStart(s);
    i, j := StripSlice(s, t, TrimEnd(t));
  }

  /** Stripping white space off the front and then the back leaves a slice. */
  lemma StripSlice(s: string, t: string, r: string) returns (i: nat, j: nat)
    requires |t| <= |s| && t == s[|s| - |t|..]
    requires forall k :: 0 <= k < |s| - |t| ==> IsSpace(s[k])
    requires |r| <= |t| && r == t[..|r|]
    requires forall k :: |r| <= k < |t| ==> IsSpace(t[k])
    ensures i <= j <= |s| && r == s[i..j]
    ensures forall k :: 0 <= k < i ==> IsSpace(s[k])
    ensures forall k :: j <= k < |s| ==> IsSpace(s[k])
  {
    i := |s| - |t|;
    j := i + |r|;
    SliceOfSlice(s, i, |r|);
    SpacesAfter(s, t, i, |r|);
  }

  lemma SliceOfSlice(s: string, i: nat, n: nat)
    requires i + n <= |s|
    ensures s[i..][..n] == s[i..i + n]
  {
  }

  /** Trailing white space of a suffix is trailing white space of the
      whole. */
  lemma SpacesAfter(s: string, t: string, i: nat, n: nat)
    requires i <= |s| && t == s[i..] && n <= |t|
    requires forall k :: n <= k < |t| ==> IsSpace(t[k])
    ensures forall k :: i + n <= k < |s| ==> IsSpace(s[k])
  {
    forall k | i + n <= k < |s|
      ensures IsSpace(s[k])
    {
      assert s[k] == t[k - i];
    }
  }

  /** A string without white space at either end is its own trim. */
  lemma TrimUnpadded(s: string)
    requires Unpadded(s)
    ensures Trim(s) == s
  {
  }

  /** Trimming removes only white space: every other character keeps its
      number of occurrences. */
  lemma {:induction false} TrimStartKeeps(s: string, c: char)
    requires !IsSpace(c)
    ensures multiset(TrimStart(s))[c] == multiset(s)[c]
  {
    if |s| > 0 && IsSpace(s[0]) {
      assert s == [s[0]] + s[1..];
      TrimStartKeeps(s[1..], c);
    }
  }

  lemma {:induction false} TrimEndKeeps(s: string, c: char)
    requires !IsSpace(c)
    ensures multiset(TrimEnd(s))[c] == multiset(s)[c]
  {
    if |s| > 0 && IsSpace(s[|s| - 1]) {
      assert s == s[..|s| - 1] + [s[|s| - 1]];
      TrimEndKeeps(s[..|s| - 1], c);
    }
  }

  lemma TrimKeeps(s: string, c: char)
    requires !IsSpace(c)
    ensures multiset(Trim(s))[c] == multiset(s)[c]
  {
    TrimStartKeeps(s, c);
    TrimEndKeeps(TrimStart(s), c);
  }

  /** ASCII `toLowerCase` of one character. */
  function LowerChar(c: char): char {
    if 'A' <= c <= 'Z' then (c as int + 32) as char else c
  }

  /** ASCII `toLowerCase`. */
  function Lower(s: string): (r: string)
    ensures |r| == |s|
    ensures forall i :: 0 <= i < |s| ==> r[i] == LowerChar(s[i])
  {
    seq(|s|, i requires 0 <= i < |s| => LowerChar(s[i]))
  }

  lemma LowerSpace(c: char)
    ensures IsSpace(LowerChar(c)) <==> IsSpace(c)
  {
  }

  lemma {:induction false} TrimStartLower(s: string)
    ensures TrimStart(Lower(s)) == Lower(TrimStart(s))
  {
    LowerSpace(if |s| > 0 then s[0] else ' ');
    if |s| > 0 && IsSpace(s[0]) {
      assert Lower(s)[1..] == Lower(s[1..]);
      TrimStartLower(s[1..]);
    }
  }

  lemma {:induction false} TrimEndLower(s: string)
    ensures TrimEnd(Lower(s)) == Lower(TrimEnd(s))
  {
    LowerSpace(if |s| > 0 then s[|s| - 1] else ' ');
    if |s| > 0 && IsSpace(s[|s| - 1]) {
      assert Lower(s)[..|s| - 1] == Lower(s[..|s| - 1]);
      TrimEndLower(s[..|s| - 1]);
    }
  }

  /** Lower-casing and trimming commute, so `q.toLowerCase().trim()` and
      `q.trim().toLowerCase()` build the same query. */
  lemma LowerTrimCommute(s: string)
    ensures Trim(Lower(s)) == Lower(Trim(s))
  {
    TrimStartLower(s);
    TrimEndLower(TrimStart(s));
  }

  /** `hay.includes(needle)`: `needle` occurs as a contiguous block of `hay`. */
  predicate Contains(hay: string, needle: string)
    decreases |hay|
  {
    needle <= hay || (|hay| > 0 && Contains(hay[1..], needle))
  }

  /** The empty string occurs in every string. */
  lemma ContainsEmpty(hay: string)
    ensures Contains(hay, "")
  {
  }

  /** A non-empty needle never occurs in the empty string. */
  lemma ContainsInEmpty(needle: string)
    requires needle != ""
    ensures !Contains("", needle)
  {
  }

  /** `parts.join(sep)`. */
  function Join(parts: seq<string>, sep: string): string {
    if |parts| == 0 then ""
    else if |parts| == 1 then parts[0]
    else parts[0] + sep + Join(parts[1..], sep)
  }

  /** The first position of `c` in `s`. */
  function IndexOf(s: string, c: char): (i: nat)
    requires c in s
    ensures i < |s| && s[i] == c && c !in s[..i]
  {
    if s[0] == c then 0 else 1 + IndexOf(s[1..], c)
  }

  /** The position of the first `c` is fixed by what precedes it. */
  lemma IndexOfAfter(a: string, c: char, b: string)
    requires c !in a
    ensures IndexOf(a + [c] + b, c) == |a|
  {
    var s := a + [c] + b;
    assert s[..|a|] == a;
    assert s[|a|] == c;
  }

  /** `s.split(c)` for a one-character separator. */
  function Split(s: string, c: char): (r: seq<string>)
    ensures |r| > 0
    decreases |s|
  {
    if c in s then
      var i := IndexOf(s, c);
      [s[..i]] + Split(s[i + 1..], c)
    else [s]
  }

  /** Splitting at a first separator preceded by a separator-free part. */
  lemma SplitStep(p: string, c: char, rest: string)
    requires c !in p
    ensures Split(p + [c] + rest, c) == [p] + Split(rest, c)
  {
    var s := p + [c] + rest;
    IndexOfAfter(p, c, rest);
    assert s[..|p|] == p;
    assert s[|p| + 1..] == rest;
  }

  /** Splitting a join recovers the parts when no part holds the separator. */
  lemma {:induction false} SplitJoin(parts: seq<string>, c: char)
    requires |parts| > 0
    requires forall k :: 0 <= k < |parts| ==> c !in parts[k]
    ensures Split(Join(parts, [c]), c) == parts
  {
    if |parts| > 1 {
      var rest := Join(parts[1..], [c]);
      assert Join(parts, [c]) == parts[0] + [c] + rest;
      SplitStep(parts[0], c, rest);
      SplitJoin(parts[1..], c);
      assert parts == [parts[0]] + parts[1..];
    }
  }
}

=== FILE: wrappers.dfy ===
/** Optional and failure-carrying values, standing in for JavaScript's
    `null`/`undefined` and for the `{ data, error }` replies of remote calls. */
module Wrappers {

  /** `None` is JavaScript's `null` or `undefined`. */
  datatype Option<+T> = None | Some(value: T) {

    /** The value, or `default` when absent (the `x ?? default` idiom). */
    function GetOr(default: T): T {
      match this
      case Some(v) => v
      case None => default
    }
  }

  /** The outcome of a remote call: a reply value or an error message. */
  datatype Result<+T, +E> = Ok(value: T) | Err(error: E)
}
